=== FILE: README.md ===
# Telemetry pipeline simulator — a Dafny model

The simulator stores devices, graph nodes that each refer to one device, and pipelines of directed connections between nodes. A websocket service works over these stores:

- Every started device has a production timer. Each tick stores a random reading in [0, 100), broadcasts the record to the device's subscribers, and forwards the reading along the pipelines.
- Forwarding goes from device to device through the *downstream map*. The service rebuilds this map from the stored connections. Each connection is resolved from node ids to device ids.
- Every started device also has an inactivity sweep. The sweep marks the device inactive when more than 5000 ms have passed since the device was started or a broadcast about it last reached an open client.
- Clients send two kinds of socket message: one creates a node together with its device, the other deletes an edge.
- HTTP controllers connect two nodes, create a node, or move a node.

The model leaves out the store, the sockets and the timers. Each operation is a pure transition over an explicit state:

| Model | Meaning |
|---|---|
| `Service` | The state: devices by id, nodes by id, the pipelines in storage order, the subscriber map, the liveness map, the devices with a production timer, one entry per started sweep, and every delivery sent |
| `now` | The clock, passed as a parameter |
| `v` | The random reading, passed as a parameter constrained to [0, 100) |
| `open` | The set of clients whose socket is OPEN |
| Fresh ids | Object ids the store generates, passed as parameters. Where the source relies on uniqueness, freshness is a precondition |
| `fuel` | Bounds the forwarding recursion. `settled` reports whether the recursion finished within it |

The model is in six modules:

| Module | File | Contents |
|---|---|---|
| `Models` | `models.dfy` | The entities |
| `Graph` | `graph.dfy` | The downstream map, with paths, cycles and ranks over it |
| `Subscriptions` | `subscriptions.dfy` | The subscriber map and the broadcast |
| `Propagation` | `propagation.dfy` | Start, tick, forwarding and sweep |
| `Control` | `control.dfy` | The socket messages |
| `PipelineControllers` | `controllers.dfy` | The HTTP controllers |

In several places the code does something other than what one might expect. The model follows the code:

- A client can be subscribed to the same device twice and then receives every broadcast twice.
- A device's liveness time is set when the device is started. After that, it is refreshed only when a broadcast about the device reaches an open client. A tick of an unwatched device does not refresh it.
- The sweep does not remember that it has already reported a device. It fires and broadcasts on every round, even when the device record is missing, unless its own notice reached an open client and so refreshed the liveness time.
- Forwarding into an unknown device does nothing. It never creates the device.
- Forwarding has no cycle detection.
- Each start adds another sweep. A second production timer is never added.
- Nothing calls `removeActiveConnection`. The close listener (src/services/websocket.services.ts:252-254) only logs. So a closed client stays in every subscriber list it joined, and broadcasts skip it only because its socket is not OPEN. `Subscriptions.RemoveActiveConnection` models the function itself, which no transition uses.

## Model

| member | source | states |
|---|---|---|
| Graph.GetPipelineConnections | src/services/websocket.services.ts:25-52 | The map the fold builds has a key exactly for the devices that are the source of some resolved connection. Each key holds the target of every such connection in storage order. The map equals the reference map `DownstreamMap` defined from all connections |
| Graph.AddConnections | src/services/websocket.services.ts:32-46 | The fold over one pipeline's connections extends the map of the pipelines before it to the map of all of them together |
| Graph.ConnectionStep | src/services/websocket.services.ts:36-45 | A connection whose endpoints do not both resolve leaves the map unchanged. One that resolves pushes its target device onto its source device's list, creating the list when absent |
| Graph.ConnectionEffect | src/services/websocket.services.ts:36-45 | The same step described by keys: the source device gains a key, its list grows by the target at the end, and every other list is unchanged |
| Graph.KeyIffResolvedOutgoing | src/services/websocket.services.ts:36-44 | A device is a key of the map if and only if some stored connection leaves one of its nodes and both endpoints of that connection resolve |
| Graph.TargetMultiplicity | src/services/websocket.services.ts:40-44 | Targets are pushed, not set-inserted: `t` occurs in the list of `d` once per edge d -> t, so parallel edges give repeated entries |
| Graph.DownstreamMultiplicity | src/services/websocket.services.ts:25-52 | In the downstream map, `t` occurs in the list of `d` as often as the stored connections resolve to the edge d -> t |
| Graph.ResolvedEdgesPermutation | src/services/websocket.services.ts:25-52 | Two orderings of the same connections resolve to the same edges, counted with multiplicity |
| Graph.DownstreamOrderFree | src/services/websocket.services.ts:25-52 | Two stores holding the same connections in any order give downstream maps with the same keys and the same count of every target in every list. So these counts do not depend on the order in which the concurrent lookups finish |
| Graph.DownstreamSnoc | src/services/websocket.services.ts:40-44 | The reference map of an edge list with one more edge is the old map after one push step |
| Graph.ResolvedEdgesAgree | src/services/websocket.services.ts:33-38 | Connections resolve only through the node-to-device lookup. Two node stores that resolve every connection alike give the same edges |
| Graph.NewNodeLeavesDownstream | src/services/websocket.services.ts:33-38 | Adding a node that no stored connection mentions leaves the downstream map unchanged |
| Graph.InsertedConnection | src/services/websocket.services.ts:32-45 | Inserting one connection anywhere among the stored ones adds exactly its own resolved edge, if it resolves. Otherwise the edges are unchanged |
| Graph.RankedHasNoCycle | src/services/websocket.services.ts:150-156 | A downstream map with a ranking, under which every edge goes to a lower rank, has no cycle. This is the acyclicity under which the forwarding recursion is bounded |
| Subscriptions.AddActiveConnection | src/services/websocket.services.ts:55-60 | Subscribing creates the device's list when absent and appends the client at the end even when it is already there. The list grows by exactly one and no other device's list changes |
| Subscriptions.Without | src/services/websocket.services.ts:64 | The filter removes every occurrence of the client and keeps every other client as often as before |
| Subscriptions.WithoutEmpty | src/services/websocket.services.ts:64-65 | The filtered list is empty if and only if every entry was the removed client |
| Subscriptions.RemoveActiveConnection | src/services/websocket.services.ts:63-68 | Unsubscribing needs the key to exist. It removes every occurrence of the client and keeps the others. It deletes the key exactly when no other client was subscribed, and leaves every other device alone |
| Subscriptions.SubscriptionsKeepListsNonEmpty | src/services/websocket.services.ts:55-68 | Subscribing and unsubscribing both keep the invariant that no stored list is empty |
| Subscriptions.RemoveUndoesAdd | src/services/websocket.services.ts:55-68 | Unsubscribing a client right after its first subscription to a device restores the subscriber map |
| Subscriptions.Recipients | src/services/websocket.services.ts:72-74 | Each list entry in OPEN state gets one message. At least one message is sent if and only if some entry is open |
| Subscriptions.BroadcastToClients | src/services/websocket.services.ts:71-79 | Only open clients receive the payload, once per list entry. The device's liveness time becomes `now` if and only if at least one open client exists. Otherwise nothing is sent and liveness is unchanged |
| Subscriptions.DoubleSubscriptionDoubleDelivery | src/services/websocket.services.ts:55-79 | Subscriptions are not de-duplicated: a client subscribed twice to a device receives each broadcast of it twice |
| Propagation.Publish | src/services/websocket.services.ts:71-79 | A broadcast appends exactly one delivery of the payload, addressed to the device's subscribers in OPEN state, and leaves the device records alone. The device's liveness becomes `now` when it has an open client. Otherwise the liveness map is unchanged. No device without an open client has its liveness changed, and no liveness entry is dropped |
| Propagation.StartDeviceUpdates | src/services/websocket.services.ts:82-122 | Starting a device ensures it has a production timer, adds one more inactivity sweep for it, and sets its liveness time to `now`. Other devices' liveness times, the nodes, the pipelines, the records, the subscribers and the sends are unchanged |
| Propagation.StartTwiceOneProducer | src/services/websocket.services.ts:82-122 | At most one production timer exists per device: starting twice keeps one producer but leaves two sweeps running |
| Propagation.TickRecord | src/services/websocket.services.ts:93-101 | The record a tick stores is active, seen now and holds the reading. An existing record keeps its name |
| Propagation.TickUpsertAsWritten | src/services/websocket.services.ts:93-101 | The tick's store update as written: an existing record is updated in place. For an absent record see the findings |
| Propagation.TickOnAbsentDeviceLosesReading | src/services/websocket.services.ts:93-101 | On an absent device, the tick as written stores no record under the device id and stores the record without the reading. The corrected tick stores the reading under the id |
| Propagation.Tick | src/services/websocket.services.ts:84-113 | After a tick the device's stored record is exactly `TickRecord`: active, seen now, holding the reading, and keeping its name when it existed. For an absent device this is the corrected record; see Findings. No record is removed. Other records change at most in last-seen time and last value. The first send appended is the device's new record, addressed to its subscribers in OPEN state; later sends are only appended. The device's liveness becomes `now` when it has an open client. Liveness changes only for devices with an open subscriber. No liveness entry is dropped, and a changed one is set to `now` |
| Propagation.Forward | src/services/websocket.services.ts:141-158 | Forwarding into an unknown device changes nothing. Forwarding never adds or removes a device record and only appends sends |
| Propagation.Enter | src/services/websocket.services.ts:142-148 | Forwarding into an existing device sets its last-seen time and last value, and leaves its status and every other record alone. It appends exactly one delivery of the updated record, addressed to the device's subscribers in OPEN state. Its liveness becomes `now` when it has an open client and stays unchanged otherwise |
| Propagation.ForwardAll | src/services/websocket.services.ts:152-155 | Forwarding into each downstream device in turn never adds or removes a device record and only appends sends |
| Propagation.ForwardTouches | src/services/websocket.services.ts:141-158 | A forwarding pass changes any device only by setting its last-seen time and last value, never its status. It refreshes liveness only for devices with an open subscriber |
| Propagation.ForwardAllTouches | src/services/websocket.services.ts:152-155 | The same for a sequence of downstream devices |
| Propagation.ForwardSettles | src/services/websocket.services.ts:141-158 | On a ranked map (one with no cycle, by `RankedHasNoCycle`), forwarding from `d` finishes within `rank[d] + 1` levels of recursion |
| Propagation.ForwardAllSettles | src/services/websocket.services.ts:152-155 | The same for a sequence of downstream devices |
| Propagation.ForwardReaches | src/services/websocket.services.ts:141-158 | A pass that finished leaves the reading and the current time on every device at the end of a path of existing devices from `d` |
| Propagation.ForwardAllReaches | src/services/websocket.services.ts:152-155 | The same from any of a sequence of downstream devices |
| Propagation.ForwardChangesOnlyReachable | src/services/websocket.services.ts:141-158 | Every device a pass changes is reachable from `d` along downstream edges through existing devices. The path is produced |
| Propagation.ForwardAllChangesOnlyReachable | src/services/websocket.services.ts:152-155 | The same from a sequence of downstream devices |
| Propagation.ForwardOnAcyclicMap | src/services/websocket.services.ts:141-158 | On a ranked map, forwarding with enough fuel finishes. It stamps every device reachable through existing devices, and it changes only such devices |
| Propagation.CycleNeverSettles | src/services/websocket.services.ts:150-156 | There is no cycle detection: from a device on a cycle of existing devices, no amount of fuel lets forwarding finish |
| Propagation.CycleAllNeverSettles | src/services/websocket.services.ts:152-155 | The same when the cycle is entered through a sequence of downstream devices |
| Propagation.TickPropagates | src/services/websocket.services.ts:103-113 | On a ranked downstream map with enough fuel, a tick's forwarding finishes. Every device at the end of a path of existing devices from the ticking device then holds the reading |
| Propagation.TickReachesPath | src/services/websocket.services.ts:103-113 | The same for one path |
| Propagation.Sweep | src/services/websocket.services.ts:120-139 | The sweep fires only when more than 5000 ms (strictly) have passed since the liveness time. Otherwise it changes nothing. When it fires, it sets only the status of the record (if any) to inactive, keeps every other record, and broadcasts the inactive notice to the open clients. The device's liveness time becomes `now` when an open client receives the notice; otherwise the liveness map is unchanged |
| Propagation.SweepRepeats | src/services/websocket.services.ts:120-139 | After firing, the sweep fires again on any later round unless its own notice reached an open client and refreshed the liveness time |
| Propagation.UnwatchedProducerIsSwept | src/services/websocket.services.ts:75-124 | A tick does not refresh liveness by itself: a device without an open subscriber is swept right after a tick and ends inactive while holding the new reading |
| Control.NodeOf | src/services/websocket.services.ts:182-186 | A created node refers to the new device. Its caption is the request's caption when that is non-empty, otherwise "Unnamed Node". Its position is the request's position, otherwise (100, 100) |
| Control.HandleCreateNode | src/services/websocket.services.ts:170-194 | Creating a node stores a new active device, seen now, with the reading, and a node linked to it under fresh ids. Every other record is kept. The creator alone gets one reply carrying both |
| Control.FirstWithEdge | src/services/websocket.services.ts:230 | Finds the first pipeline in storage order holding a connection with the edge id, or reports that none does |
| Control.FirstWithEdgeAt | src/services/websocket.services.ts:230 | The first pipeline holding the edge is the one at `i` when `i` holds it and no earlier pipeline does |
| Control.Drop | src/services/websocket.services.ts:232-234 | No connection with the deleted id remains |
| Control.DropCounts | src/services/websocket.services.ts:232-234 | Every connection with another id is kept as often as it occurred |
| Control.DropAbsent | src/services/websocket.services.ts:232-234 | Filtering an id that no connection carries changes nothing |
| Control.DropEmpty | src/services/websocket.services.ts:232-235 | The filtered list is empty if and only if every connection carried the deleted id |
| Control.DeleteEdge | src/services/websocket.services.ts:229-240 | Deleting an edge no pipeline holds changes nothing. Otherwise only the first pipeline holding it changes. It is deleted when the edge was all its connections. Else it keeps its id, name and nodes and loses exactly the connections with that id |
| Control.DeleteLastConnection | src/services/websocket.services.ts:229-240 | Deleting an edge carried only by the last connection of the first pipeline holding it removes exactly that connection |
| Control.HandleMessage | src/services/websocket.services.ts:214-249 | An unknown message changes nothing. Delete-edge edits the pipelines and replies to the sender even when no pipeline had the edge. Create-node stores the new active device with the reading and its node, subscribes the sender to the new device once more, starts its timers, sets its liveness time to `now` and replies to the sender alone. Nothing else changes |
| Control.CreatorWatchesNewDevice | src/services/websocket.services.ts:217-223 | The creator of a node is subscribed to its device: while the creator's socket is open, a broadcast of the new device reaches it |
| PipelineControllers.FirstTouching | src/controllers/pipeline.controllers.ts:8-10 | Finds the first pipeline in storage order whose nodes include the source or the target, or reports that none does |
| PipelineControllers.MergeNodes | src/controllers/pipeline.controllers.ts:15-20 | The merged node list keeps the old list as a prefix and contains both endpoints. Nodes already present are not added again, so it grows by at most two |
| PipelineControllers.CreateOrUpdatePipeline | src/controllers/pipeline.controllers.ts:5-34 | A pipeline that mentions either node gets one connection appended at the end (duplicates allowed). Its node list becomes the merged list: only the endpoints not yet present are pushed, so it grows by at most two. Its name is unchanged. No other pipeline changes. Otherwise a new pipeline is added with the given name, nodes [source, target] and the single connection; the store rejects it when the name is missing or empty |
| PipelineControllers.ConnectInserts | src/controllers/pipeline.controllers.ts:13-33 | An accepted connect request inserts its connection exactly once among the stored connections and changes no other connection |
| PipelineControllers.ConnectAddsDownstreamEdge | src/controllers/pipeline.controllers.ts:5-34 | Connecting two existing nodes adds exactly one entry to the downstream map: the target's device, once more, in the source's device list |
| PipelineControllers.DanglingConnectLeavesDownstream | src/controllers/pipeline.controllers.ts:5-34 | Connecting a node that does not exist stores the connection but leaves the downstream map unchanged |
| PipelineControllers.DeleteAppendedEdge | src/services/websocket.services.ts:229-240 | Deleting a fresh edge that was appended to one pipeline restores that pipeline's connections and leaves every other pipeline as it was |
| PipelineControllers.DeleteUndoesMerge | src/controllers/pipeline.controllers.ts:13-23 | Deleting the edge that a merge added, whose id is fresh, restores the pipeline's connections and every other pipeline. The nodes the merge added stay |
| PipelineControllers.DeleteUndoesNewPipeline | src/controllers/pipeline.controllers.ts:24-33 | Deleting the edge of a pipeline the request created deletes that pipeline again |
| PipelineControllers.ConnectKeepsPipelinesNonEmpty | src/controllers/pipeline.controllers.ts:5-34 | Connecting keeps the invariant that every stored pipeline has a connection |
| PipelineControllers.DeleteKeepsPipelinesNonEmpty | src/services/websocket.services.ts:229-240 | Deleting an edge keeps that invariant, because a pipeline left without connections is deleted |
| PipelineControllers.CreateNodes | src/controllers/pipeline.controllers.ts:40-59 | Creating a node stores an active device seen now with no reading. It stores a node referring to that device if and only if the caption is non-empty and a position is given; the node schema rejects the node otherwise, while the device stays. Nothing else changes |
| PipelineControllers.CreateNodesLeavesDownstream | src/controllers/pipeline.controllers.ts:40-59 | Creating a node under a fresh id, accepted or not, leaves the downstream map unchanged |
| PipelineControllers.UpdateNode | src/controllers/pipeline.controllers.ts:61-71 | Moving a node changes only its position. A missing node or a missing position leaves the store unchanged |
| PipelineControllers.UpdateNodeKeepsDownstream | src/controllers/pipeline.controllers.ts:61-71 | Moving a node never changes where readings flow |

## Left out

- The store is in-memory maps and sequences. The model does not cover failures, rejected `ObjectId` casts, or `populate`.
- The websocket server is left out: `connect`, the connection listener (which subscribes a new client to every stored device and starts them), the close listener, `client.send` and JSON encoding. The subscriber map and the sends are modelled; the transport is not.
- Timers are left out. Each tick or sweep is one transition with the clock passed in. The production interval (2000 ms) and sweep interval (5000 ms) only schedule those transitions.
- `Math.random()` is a parameter `v` with 0 <= v < 100. Floating point is modelled as `real`.
- Concurrency is left out. The source runs its store lookups and forwarding calls concurrently. The model runs them sequentially in storage order. The order-free facts about the downstream map are stated as multiplicities.
- The source rebuilds the downstream map on every forwarding step. The model computes it once per tick. Forwarding changes no pipeline or node, so each rebuild yields the same entries.
- Propagation.Tick: for a device with no stored record, the tick stores the corrected record `TickRecord`: the reading, under the device's own id. The source stores a record under a new id with no reading (see Findings; the as-written behaviour is `TickUpsertAsWritten`).
- Propagation.Forward: forwarding depth is bounded by `fuel`. When the fuel runs out, `settled` is false, where the source would keep recursing.
- The failure path of `handleCreateNode` is left out: its `ERROR` reply, and the subscription and start under an undefined device id that follow it.
- The rest of `src/controllers/pipeline.controllers.ts` is not part of this model: `getNodesController`, `getPipelinesController`, the time-series query, and the empty `updateEdgesController`.
- `src/constants/config.ts`, `src/index.ts` and `src/routes` are not part of this model.
- Positions given with only one coordinate are not modelled: a position is either whole or missing.

## Findings

| source | as written | input that shows it | evidently intended | confidence | as-written member | corrected member |
|---|---|---|---|---|---|---|
| src/services/websocket.services.ts:98-99 | A tick on a device with no stored record does `new Device(data)`. The device schema (src/models/device.model.ts:15-21) declares neither `deviceId` nor `value`, so the store drops both. The record gets a fresh id and no last value | A started device whose record was deleted, ticking with reading 42.0 | The record is recreated under the ticking device's id, holding the reading | medium: relies on the store's default strict schemas; not executed | Propagation.TickUpsertAsWritten (with Propagation.TickOnAbsentDeviceLosesReading) | Propagation.TickRecord |

=== FILE: control.dfy ===
/** The messages a client sends over its socket: creating a node together with its
    device, and deleting an edge. Each is one transition of the service state; the reply
    goes to the requesting client only. */
module Control {
  import opened Models
  import opened Subscriptions
  import opened Propagation

  /** The caption of a node created over the socket without a usable one. */
  const DefaultCaption: string := "Unnamed Node"

  /** The position of a node created over the socket without one. */
  const DefaultPosition: Position := Position(100.0, 100.0)

  /** The node fields a client supplies; every one may be missing. */
  datatype NodeRequest = NodeRequest(deviceName: Option<string>, caption: Option<string>, position: Option<Position>)

  /** A message read from a client socket, by its `type` field. */
  datatype Message =
    | CreateNodeRequest(node: NodeRequest)
    | DeleteEdgeRequest(edgeId: EdgeId)
    | UnknownRequest(kind: string)

  /** The node a create-node message stores: a missing or empty caption falls back to
      the default, and so does a missing position. */
  function NodeOf(req: NodeRequest, deviceId: DeviceId): (n: Node)
    ensures n.caption != "" && n.deviceId == deviceId
    ensures IsFilled(req.caption) ==> n.caption == req.caption.value
    ensures !IsFilled(req.caption) ==> n.caption == DefaultCaption
    ensures n.position == if req.position.Some? then req.position.value else DefaultPosition
  {
    Node(if IsFilled(req.caption) then req.caption.value else DefaultCaption,
         if req.position.Some? then req.position.value else DefaultPosition,
         deviceId)
  }

  /** Creates the device (active, seen now, holding the first reading `v`) and its node
      under the fresh ids the store assigns, and replies to `ws` with both. */
  function HandleCreateNode(s: Service, ws: ClientId, req: NodeRequest, v: real, now: Time, deviceId: DeviceId, nodeId: NodeId): (r: Service)
    requires IsReading(v) && deviceId !in s.devices && nodeId !in s.nodes
    ensures r.devices.Keys == s.devices.Keys + {deviceId}
    ensures r.devices[deviceId] == Device(req.deviceName, Active, now, Some(v))
    ensures forall x :: x in s.devices ==> r.devices[x] == s.devices[x]
    ensures r.nodes.Keys == s.nodes.Keys + {nodeId} && forall x :: x in s.nodes ==> r.nodes[x] == s.nodes[x]
    ensures r.nodes[nodeId] == NodeOf(req, deviceId)
    ensures r.outbox == s.outbox + [Delivery([ws], NodeCreated(nodeId, r.nodes[nodeId], r.devices[deviceId]))]
    ensures r.pipelines == s.pipelines && r.subscribers == s.subscribers && r.activeDevices == s.activeDevices
    ensures r.producers == s.producers && r.sweeps == s.sweeps
  {
    var device := Device(req.deviceName, Active, now, Some(v));
    var node := NodeOf(req, deviceId);
    s.(devices := s.devices[deviceId := device],
       nodes := s.nodes[nodeId := node],
       outbox := s.outbox + [Delivery([ws], NodeCreated(nodeId, node, device))])
  }

  /** The index of the first pipeline holding a connection with id `e`. */
  function FirstWithEdge(ps: seq<Pipeline>, e: EdgeId): (r: Option<nat>)
    ensures r.Some? ==> r.value < |ps| && HasEdge(ps[r.value], e)
    ensures r.Some? ==> forall k :: 0 <= k < r.value ==> !HasEdge(ps[k], e)
    ensures r.None? ==> forall k :: 0 <= k < |ps| ==> !HasEdge(ps[k], e)
    decreases |ps|
  {
    if |ps| == 0 then None
    else if HasEdge(ps[0], e) then Some(0)
    else
      var rest := FirstWithEdge(ps[1..], e);
      assert forall k :: 1 <= k < |ps| ==> ps[k] == ps[1..][k - 1];
      if rest.Some? then Some(rest.value + 1) else None
  }

  /** The first pipeline with edge `e` is the one at `i` exactly when `i` has it and no
      pipeline before `i` does. */
  lemma FirstWithEdgeAt(ps: seq<Pipeline>, e: EdgeId, i: nat)
    requires i < |ps| && HasEdge(ps[i], e)
    requires forall k :: 0 <= k < i ==> !HasEdge(ps[k], e)
    ensures FirstWithEdge(ps, e) == Some(i)
  {
  }

  /** The connections of `cs` whose id is not `e`, order kept. */
  function Drop(cs: seq<Connection>, e: EdgeId): (r: seq<Connection>)
    ensures forall k :: 0 <= k < |r| ==> r[k].id != e
  {
    if |cs| == 0 then []
    else Drop(cs[..|cs| - 1], e) + (if cs[|cs| - 1].id == e then [] else [cs[|cs| - 1]])
  }

  /** Dropping `e` keeps every other connection as often as it occurred. */
  lemma {:induction false} DropCounts(cs: seq<Connection>, e: EdgeId)
    ensures forall c :: multiset(Drop(cs, e))[c] == if c.id == e then 0 else multiset(cs)[c]
    decreases |cs|
  {
    if |cs| > 0 {
      DropCounts(cs[..|cs| - 1], e);
      assert cs == cs[..|cs| - 1] + [cs[|cs| - 1]];
    }
  }

  /** Dropping an id that no connection carries changes nothing. */
  lemma {:induction false} DropAbsent(cs: seq<Connection>, e: EdgeId)
    requires forall k :: 0 <= k < |cs| ==> cs[k].id != e
    ensures Drop(cs, e) == cs
    decreases |cs|
  {
    if |cs| > 0 {
      var init := cs[..|cs| - 1];
      DropAbsent(init, e);
      assert cs == init + [cs[|cs| - 1]];
    }
  }

  /** Dropping `e` leaves nothing exactly when every connection carries `e`. */
  lemma {:induction false} DropEmpty(cs: seq<Connection>, e: EdgeId)
    ensures |Drop(cs, e)| == 0 <==> forall k :: 0 <= k < |cs| ==> cs[k].id == e
    decreases |cs|
  {
    if |cs| > 0 {
      var init := cs[..|cs| - 1];
      DropEmpty(init, e);
      assert forall k :: 0 <= k < |init| ==> init[k] == cs[k];
    }
  }

  /** Every connection of `p` carries the id `e`. */
  predicate OnlyEdge(p: Pipeline, e: EdgeId) {
    forall k :: 0 <= k < |p.connections| ==> p.connections[k].id == e
  }

  /** Removes the connections with id `e` from the first pipeline that has one, and
      deletes that pipeline when no connection is left; later pipelines are not
      searched. */
  function DeleteEdge(ps: seq<Pipeline>, e: EdgeId): (r: seq<Pipeline>)
    ensures FirstWithEdge(ps, e).None? ==> r == ps
    ensures FirstWithEdge(ps, e).Some? ==>
      var i := FirstWithEdge(ps, e).value;
      && (OnlyEdge(ps[i], e) ==> r == ps[..i] + ps[i + 1..])
      && (!OnlyEdge(ps[i], e) ==>
           && |r| == |ps| && r == ps[i := r[i]]
           && r[i].id == ps[i].id && r[i].name == ps[i].name && r[i].nodes == ps[i].nodes
           && !HasEdge(r[i], e)
           && forall c :: multiset(r[i].connections)[c] == if c.id == e then 0 else multiset(ps[i].connections)[c])
  {
    match FirstWithEdge(ps, e)
    case None => ps
    case Some(i) =>
      var kept := Drop(ps[i].connections, e);
      DropEmpty(ps[i].connections, e);
      DropCounts(ps[i].connections, e);
      if |kept| == 0 then ps[..i] + ps[i + 1..]
      else
        ps[i := ps[i].(connections := kept)]
  }

  /** Dropping the id that only the last connection carries removes that connection. */
  lemma DropLast(cs: seq<Connection>, e: EdgeId)
    requires |cs| > 0 && cs[|cs| - 1].id == e
    requires forall k :: 0 <= k < |cs| - 1 ==> cs[k].id != e
    ensures Drop(cs, e) == cs[..|cs| - 1]
  {
    DropAbsent(cs[..|cs| - 1], e);
  }

  /** Deleting an edge whose id only the last connection of the first pipeline holding
      it carries removes exactly that connection. */
  lemma DeleteLastConnection(ps: seq<Pipeline>, i: nat, e: EdgeId)
    requires FirstWithEdge(ps, e) == Some(i)
    requires |ps[i].connections| > 1 && ps[i].connections[|ps[i].connections| - 1].id == e
    requires forall k :: 0 <= k < |ps[i].connections| - 1 ==> ps[i].connections[k].id != e
    ensures DeleteEdge(ps, e) == ps[i := ps[i].(connections := ps[i].connections[..|ps[i].connections| - 1])]
  {
    var cs := ps[i].connections;
    DropLast(cs, e);
    assert cs[0].id != e;
    assert !OnlyEdge(ps[i], e);
  }

  /** Handles one client message. A create-node message stores the device and node,
      subscribes the sender to the new device and starts its timers; a delete-edge
      message edits the pipelines and replies even when no pipeline had the edge; any
      other message changes nothing. */
  function HandleMessage(s: Service, ws: ClientId, msg: Message, v: real, now: Time, deviceId: DeviceId, nodeId: NodeId): (r: Service)
    requires msg.CreateNodeRequest? ==> IsReading(v) && deviceId !in s.devices && nodeId !in s.nodes
    ensures msg.UnknownRequest? ==> r == s
    ensures msg.DeleteEdgeRequest? ==>
      r == s.(pipelines := DeleteEdge(s.pipelines, msg.edgeId), outbox := s.outbox + [Delivery([ws], EdgeDeleted(msg.edgeId))])
    ensures msg.CreateNodeRequest? ==>
      && deviceId in r.devices && r.devices[deviceId].status == Active && r.devices[deviceId].lastValue == Some(v)
      && nodeId in r.nodes && r.nodes[nodeId].deviceId == deviceId
      && Clients(r.subscribers, deviceId) == Clients(s.subscribers, deviceId) + [ws]
      && deviceId in r.producers && r.sweeps[deviceId] == s.sweeps[deviceId] + 1
      && deviceId in r.activeDevices && r.activeDevices[deviceId] == now
      && |r.outbox| == |s.outbox| + 1 && r.outbox[|s.outbox|].recipients == [ws]
    ensures msg.CreateNodeRequest? ==>
      var device := Device(msg.node.deviceName, Active, now, Some(v));
      && r.devices == s.devices[deviceId := device]
      && r.nodes == s.nodes[nodeId := NodeOf(msg.node, deviceId)] && r.pipelines == s.pipelines
      && r.subscribers == AddActiveConnection(s.subscribers, deviceId, ws)
      && r.producers == s.producers + {deviceId} && r.sweeps == s.sweeps + multiset{deviceId}
      && r.activeDevices == s.activeDevices[deviceId := now]
      && r.outbox == s.outbox + [Delivery([ws], NodeCreated(nodeId, NodeOf(msg.node, deviceId), device))]
  {
    match msg
    case CreateNodeRequest(req) =>
      var created := HandleCreateNode(s, ws, req, v, now, deviceId, nodeId);
      StartDeviceUpdates(created.(subscribers := AddActiveConnection(created.subscribers, deviceId, ws)), deviceId, now)
    case DeleteEdgeRequest(e) =>
      s.(pipelines := DeleteEdge(s.pipelines, e), outbox := s.outbox + [Delivery([ws], EdgeDeleted(e))])
    case UnknownRequest(_) => s
  }

  /** The creator of a node watches its device: while the creator's socket is open, a
      broadcast of the new device reaches it, and refreshes the device's liveness. */
  lemma CreatorWatchesNewDevice(s: Service, ws: ClientId, req: NodeRequest, v: real, now: Time, deviceId: DeviceId, nodeId: NodeId, open: set<ClientId>)
    requires IsReading(v) && deviceId !in s.devices && nodeId !in s.nodes && ws in open
    ensures var r := HandleMessage(s, ws, CreateNodeRequest(req), v, now, deviceId, nodeId);
      && HasOpenClient(r.subscribers, open, deviceId)
      && multiset(BroadcastToClients(r.subscribers, r.activeDevices, open, deviceId, now).recipients)[ws] >= 1
  {
    var r := HandleMessage(s, ws, CreateNodeRequest(req), v, now, deviceId, nodeId);
    var cs := Clients(r.subscribers, deviceId);
    assert cs[|cs| - 1] == ws;
    assert multiset(cs)[ws] >= 1;
  }
}

=== FILE: controllers.dfy ===
/** The HTTP controllers that edit the stored graph: connecting two nodes (merged into
    the first pipeline that mentions either of them, or a new pipeline), creating a node
    together with its device, and moving a node. */
module PipelineControllers {
  import opened Models
  import opened Graph
  import opened Propagation
  import opened Control

  /** The body of a connect request: an optional pipeline name and the two node ids. */
  datatype ConnectRequest = ConnectRequest(name: Option<string>, source: NodeId, target: NodeId)

  /** The index of the first pipeline whose node list mentions `source` or `target`. */
  function FirstTouching(ps: seq<Pipeline>, source: NodeId, target: NodeId): (r: Option<nat>)
    ensures r.Some? ==> r.value < |ps| && Touches(ps[r.value], source, target)
    ensures r.Some? ==> forall k :: 0 <= k < r.value ==> !Touches(ps[k], source, target)
    ensures r.None? ==> forall k :: 0 <= k < |ps| ==> !Touches(ps[k], source, target)
    decreases |ps|
  {
    if |ps| == 0 then None
    else if Touches(ps[0], source, target) then Some(0)
    else
      var rest := FirstTouching(ps[1..], source, target);
      assert forall k :: 1 <= k < |ps| ==> ps[k] == ps[1..][k - 1];
      if rest.Some? then Some(rest.value + 1) else None
  }

  /** The node list after a merge: `source` pushed when absent, then `target` pushed
      when still absent. */
  function MergeNodes(nodes: seq<NodeId>, source: NodeId, target: NodeId): (r: seq<NodeId>)
    ensures nodes <= r && source in r && target in r
    ensures |r| <= |nodes| + 2
    ensures forall x :: multiset(r)[x] == multiset(nodes)[x] + (if x !in nodes && (x == source || x == target) then 1 else 0)
  {
    var withSource := if source in nodes then nodes else nodes + [source];
    if target in withSource then withSource else withSource + [target]
  }

  /** Connects `source` to `target`. The first pipeline that mentions either node gets
      the missing nodes and a new connection with the store-assigned id `edgeId`, its name
      untouched; when no pipeline mentions them, a pipeline `pipelineId` holding the two
      nodes and the connection is created, which the store rejects unless the name is
      present and non-empty. */
  function CreateOrUpdatePipeline(ps: seq<Pipeline>, req: ConnectRequest, edgeId: EdgeId, pipelineId: PipelineId): (r: seq<Pipeline>)
    ensures FirstTouching(ps, req.source, req.target).Some? ==>
      var i := FirstTouching(ps, req.source, req.target).value;
      && |r| == |ps|
      && r[i].id == ps[i].id && r[i].name == ps[i].name
      && r[i].connections == ps[i].connections + [Connection(edgeId, req.source, req.target)]
      && ps[i].nodes <= r[i].nodes && req.source in r[i].nodes && req.target in r[i].nodes
      && r[i].nodes == MergeNodes(ps[i].nodes, req.source, req.target) && |r[i].nodes| <= |ps[i].nodes| + 2
      && forall k :: 0 <= k < |ps| && k != i ==> r[k] == ps[k]
    ensures FirstTouching(ps, req.source, req.target).None? && IsFilled(req.name) ==>
      && |r| == |ps| + 1 && r[..|ps|] == ps
      && r[|ps|] == Pipeline(pipelineId, req.name.value, [req.source, req.target], [Connection(edgeId, req.source, req.target)])
    ensures FirstTouching(ps, req.source, req.target).None? && !IsFilled(req.name) ==> r == ps
  {
    var c := Connection(edgeId, req.source, req.target);
    match FirstTouching(ps, req.source, req.target)
    case Some(i) =>
      ps[i := ps[i].(nodes := MergeNodes(ps[i].nodes, req.source, req.target), connections := ps[i].connections + [c])]
    case None =>
      if IsFilled(req.name) then
        var r := ps + [Pipeline(pipelineId, req.name.value, [req.source, req.target], [c])];
        assert r[..|ps|] == ps;
        r
      else ps
  }

  /** A connect request that is not rejected inserts its connection somewhere among the
      stored ones: the connections after it are those before it with `c` inserted. */
  lemma ConnectInserts(ps: seq<Pipeline>, req: ConnectRequest, edgeId: EdgeId, pipelineId: PipelineId)
    returns (a: seq<Connection>, b: seq<Connection>)
    requires FirstTouching(ps, req.source, req.target).Some? || IsFilled(req.name)
    ensures AllConnections(ps) == a + b
    ensures AllConnections(CreateOrUpdatePipeline(ps, req, edgeId, pipelineId)) == a + [Connection(edgeId, req.source, req.target)] + b
  {
    var r := CreateOrUpdatePipeline(ps, req, edgeId, pipelineId);
    var c := Connection(edgeId, req.source, req.target);
    match FirstTouching(ps, req.source, req.target)
    case Some(i) =>
      assert r == ps[i := r[i]];
      a, b := AllConnections(ps[..i]) + ps[i].connections, AllConnections(ps[i + 1..]);
      ExtendedPipeline(ps, i, r[i], c);
    case None =>
      assert r == ps + [r[|ps|]];
      AddedPipeline(ps, r[|ps|]);
      a, b := AllConnections(ps), [];
  }

  lemma ExtendedPipeline(ps: seq<Pipeline>, i: nat, p: Pipeline, c: Connection)
    requires i < |ps| && p.connections == ps[i].connections + [c]
    ensures AllConnections(ps) == (AllConnections(ps[..i]) + ps[i].connections) + AllConnections(ps[i + 1..])
    ensures AllConnections(ps[i := p]) == (AllConnections(ps[..i]) + ps[i].connections) + [c] + AllConnections(ps[i + 1..])
  {
    AllConnectionsUpdate(ps, i, p);
  }

  lemma AddedPipeline(ps: seq<Pipeline>, p: Pipeline)
    ensures AllConnections(ps + [p]) == AllConnections(ps) + p.connections
  {
    assert (ps + [p])[..|ps|] == ps;
  }

  /** Connecting two existing nodes adds exactly one entry to the downstream map: the
      target's device, once more, in the list of the source's device; every other count
      is unchanged. */
  lemma ConnectAddsDownstreamEdge(ps: seq<Pipeline>, nodes: map<NodeId, Node>, req: ConnectRequest, edgeId: EdgeId, pipelineId: PipelineId, x: DeviceId, y: DeviceId)
    requires req.source in nodes && req.target in nodes
    requires FirstTouching(ps, req.source, req.target).Some? || IsFilled(req.name)
    ensures var r := CreateOrUpdatePipeline(ps, req, edgeId, pipelineId);
      var e := Edge(nodes[req.source].deviceId, nodes[req.target].deviceId);
      multiset(Outputs(DownstreamMap(r, nodes), x))[y]
        == multiset(Outputs(DownstreamMap(ps, nodes), x))[y] + (if Edge(x, y) == e then 1 else 0)
  {
    var r := CreateOrUpdatePipeline(ps, req, edgeId, pipelineId);
    var c := Connection(edgeId, req.source, req.target);
    var a, b := ConnectInserts(ps, req, edgeId, pipelineId);
    InsertedConnection(nodes, a, b, c);
    ResolvedSingle(nodes, c);
    DownstreamMultiplicity(r, nodes, x, y);
    DownstreamMultiplicity(ps, nodes, x, y);
  }

  /** Connecting a node that does not exist stores the connection but leaves the
      downstream map unchanged. */
  lemma DanglingConnectLeavesDownstream(ps: seq<Pipeline>, nodes: map<NodeId, Node>, req: ConnectRequest, edgeId: EdgeId, pipelineId: PipelineId)
    requires req.source !in nodes || req.target !in nodes
    ensures DownstreamMap(CreateOrUpdatePipeline(ps, req, edgeId, pipelineId), nodes) == DownstreamMap(ps, nodes)
  {
    if FirstTouching(ps, req.source, req.target).Some? || IsFilled(req.name) {
      var r := CreateOrUpdatePipeline(ps, req, edgeId, pipelineId);
      var a, b := ConnectInserts(ps, req, edgeId, pipelineId);
      InsertedConnection(nodes, a, b, Connection(edgeId, req.source, req.target));
      assert ResolvedEdges(nodes, AllConnections(r)) == ResolvedEdges(nodes, AllConnections(ps));
    }
  }

  /** Deleting the edge a connect request merged into an existing pipeline, with a
      store-fresh edge id, gives that pipeline its connections back; the nodes it gained
      stay, and no other pipeline changes. */
  lemma DeleteUndoesMerge(ps: seq<Pipeline>, req: ConnectRequest, edgeId: EdgeId, pipelineId: PipelineId)
    requires NoEmptyPipelines(ps) && forall k :: 0 <= k < |ps| ==> !HasEdge(ps[k], edgeId)
    requires FirstTouching(ps, req.source, req.target).Some?
    ensures var i := FirstTouching(ps, req.source, req.target).value;
      var r := DeleteEdge(CreateOrUpdatePipeline(ps, req, edgeId, pipelineId), edgeId);
      && |r| == |ps| && r[i].connections == ps[i].connections
      && (forall k :: 0 <= k < |ps| && k != i ==> r[k] == ps[k])
      && AllConnections(r) == AllConnections(ps)
  {
    var i := FirstTouching(ps, req.source, req.target).value;
    var merged := CreateOrUpdatePipeline(ps, req, edgeId, pipelineId);
    assert merged == ps[i := merged[i]];
    DeleteAppendedEdge(ps, i, merged[i], Connection(edgeId, req.source, req.target));
  }

  /** Deleting a fresh edge appended to pipeline `i` restores that pipeline's connections. */
  lemma DeleteAppendedEdge(ps: seq<Pipeline>, i: nat, p: Pipeline, c: Connection)
    requires NoEmptyPipelines(ps) && i < |ps| && forall k :: 0 <= k < |ps| ==> !HasEdge(ps[k], c.id)
    requires p.connections == ps[i].connections + [c]
    ensures var r := DeleteEdge(ps[i := p], c.id);
      && |r| == |ps| && r[i] == p.(connections := ps[i].connections)
      && (forall k :: 0 <= k < |ps| && k != i ==> r[k] == ps[k])
      && AllConnections(r) == AllConnections(ps)
  {
    var merged := ps[i := p];
    var cs := ps[i].connections;
    assert merged[i].connections[|cs|] == c && merged[i].connections[..|cs|] == cs;
    FirstWithEdgeAt(merged, c.id, i);
    DeleteLastConnection(merged, i, c.id);
    var restored := merged[i := p.(connections := cs)];
    assert restored == ps[i := restored[i]];
    AllConnectionsUpdate(ps, i, restored[i]);
  }

  /** Deleting the edge of a pipeline a connect request created, with a store-fresh edge
      id, deletes that pipeline again. */
  lemma {:induction false} DeleteUndoesNewPipeline(ps: seq<Pipeline>, req: ConnectRequest, edgeId: EdgeId, pipelineId: PipelineId)
    requires forall k :: 0 <= k < |ps| ==> !HasEdge(ps[k], edgeId)
    requires FirstTouching(ps, req.source, req.target).None? && IsFilled(req.name)
    ensures DeleteEdge(CreateOrUpdatePipeline(ps, req, edgeId, pipelineId), edgeId) == ps
  {
    var created := CreateOrUpdatePipeline(ps, req, edgeId, pipelineId);
    assert created[|ps|].connections[0].id == edgeId;
    FirstWithEdgeAt(created, edgeId, |ps|);
    assert OnlyEdge(created[|ps|], edgeId);
    assert created[..|ps|] + created[|ps| + 1..] == ps;
  }

  /** Connecting keeps every stored pipeline non-empty. */
  lemma ConnectKeepsPipelinesNonEmpty(ps: seq<Pipeline>, req: ConnectRequest, edgeId: EdgeId, pipelineId: PipelineId)
    requires NoEmptyPipelines(ps)
    ensures NoEmptyPipelines(CreateOrUpdatePipeline(ps, req, edgeId, pipelineId))
  {
  }

  /** Deleting an edge keeps every stored pipeline non-empty: a pipeline left without
      connections is deleted. */
  lemma DeleteKeepsPipelinesNonEmpty(ps: seq<Pipeline>, edgeId: EdgeId)
    requires NoEmptyPipelines(ps)
    ensures NoEmptyPipelines(DeleteEdge(ps, edgeId))
  {
    var r := DeleteEdge(ps, edgeId);
    if FirstWithEdge(ps, edgeId).Some? {
      var i := FirstWithEdge(ps, edgeId).value;
      if OnlyEdge(ps[i], edgeId) {
        RemovalKeepsPipelinesNonEmpty(ps, i);
      } else {
        var j :| 0 <= j < |ps[i].connections| && ps[i].connections[j].id != edgeId;
        assert multiset(r[i].connections)[ps[i].connections[j]] > 0;
      }
    }
  }

  lemma RemovalKeepsPipelinesNonEmpty(ps: seq<Pipeline>, i: nat)
    requires NoEmptyPipelines(ps) && i < |ps|
    ensures NoEmptyPipelines(ps[..i] + ps[i + 1..])
  {
    var r := ps[..i] + ps[i + 1..];
    assert forall k :: 0 <= k < |r| ==> r[k] == if k < i then ps[k] else ps[k + 1];
  }

  /** Creates a device (active, seen now, no reading yet) and then its node under the
      fresh ids the store assigns. The node schema requires a non-empty caption and a
      position: when either is missing the node is rejected but the device stays
      stored. */
  function CreateNodes(s: Service, req: NodeRequest, deviceId: DeviceId, nodeId: NodeId, now: Time): (r: Service)
    requires deviceId !in s.devices && nodeId !in s.nodes
    ensures r.devices.Keys == s.devices.Keys + {deviceId}
    ensures r.devices[deviceId] == Device(req.deviceName, Active, now, None)
    ensures forall x :: x in s.devices ==> r.devices[x] == s.devices[x]
    ensures nodeId in r.nodes <==> IsFilled(req.caption) && req.position.Some?
    ensures nodeId in r.nodes ==> r.nodes[nodeId] == Node(req.caption.value, req.position.value, deviceId)
    ensures forall x :: x != nodeId ==> (x in r.nodes <==> x in s.nodes) && (x in s.nodes ==> r.nodes[x] == s.nodes[x])
    ensures r == s.(devices := r.devices, nodes := r.nodes)
  {
    var withDevice := s.(devices := s.devices[deviceId := Device(req.deviceName, Active, now, None)]);
    if IsFilled(req.caption) && req.position.Some? then
      withDevice.(nodes := s.nodes[nodeId := Node(req.caption.value, req.position.value, deviceId)])
    else withDevice
  }

  /** Creating a node with a store-fresh id, which no stored connection can mention,
      leaves the downstream map unchanged, accepted or not. */
  lemma CreateNodesLeavesDownstream(s: Service, req: NodeRequest, deviceId: DeviceId, nodeId: NodeId, now: Time)
    requires deviceId !in s.devices && nodeId !in s.nodes
    requires forall c :: c in AllConnections(s.pipelines) ==> c.from != nodeId && c.to != nodeId
    ensures var r := CreateNodes(s, req, deviceId, nodeId, now);
      DownstreamMap(r.pipelines, r.nodes) == DownstreamMap(s.pipelines, s.nodes)
  {
    if IsFilled(req.caption) && req.position.Some? {
      NewNodeLeavesDownstream(s.pipelines, s.nodes, nodeId, Node(req.caption.value, req.position.value, deviceId));
    }
  }

  /** Moves node `id`. A missing node is left alone; a missing position fails the
      schema's required coordinates, so the stored node is left alone too. */
  function UpdateNode(nodes: map<NodeId, Node>, id: NodeId, position: Option<Position>): (r: map<NodeId, Node>)
    ensures r.Keys == nodes.Keys
    ensures forall x :: x in nodes && x != id ==> r[x] == nodes[x]
    ensures id in nodes ==> r[id].caption == nodes[id].caption && r[id].deviceId == nodes[id].deviceId
    ensures id in nodes && position.Some? ==> r[id].position == position.value
    ensures position.None? ==> r == nodes
  {
    if id in nodes && position.Some? then nodes[id := nodes[id].(position := position.value)] else nodes
  }

  /** Moving a node never changes where readings flow: the downstream map depends on the
      nodes only through the devices they refer to. */
  lemma UpdateNodeKeepsDownstream(ps: seq<Pipeline>, nodes: map<NodeId, Node>, id: NodeId, position: Option<Position>)
    ensures DownstreamMap(ps, UpdateNode(nodes, id, position)) == DownstreamMap(ps, nodes)
  {
    var moved := UpdateNode(nodes, id, position);
    var cs := AllConnections(ps);
    forall k | 0 <= k < |cs|
      ensures Resolve(moved, cs[k]) == Resolve(nodes, cs[k])
    {
    }
    ResolvedEdgesAgree(moved, nodes, cs);
  }
}

=== FILE: graph.dfy ===
/** The downstream map: device id to the devices one pipeline edge away, rebuilt from
    every pipeline's connections by resolving each endpoint node to its device. */
module Graph {
  import opened Models

  /** A connection whose both endpoints resolved, in device terms. */
  datatype Edge = Edge(from: DeviceId, to: DeviceId)

  type Downstream = map<DeviceId, seq<DeviceId>>

  /** The device edge behind a connection, when both endpoint nodes exist. */
  function Resolve(nodes: map<NodeId, Node>, c: Connection): Option<Edge> {
    if c.from in nodes && c.to in nodes then Some(Edge(nodes[c.from].deviceId, nodes[c.to].deviceId))
    else None
  }

  /** Every pipeline's connections, pipeline after pipeline. */
  function AllConnections(ps: seq<Pipeline>): seq<Connection> {
    if |ps| == 0 then [] else AllConnections(ps[..|ps| - 1]) + ps[|ps| - 1].connections
  }

  /** The resolved edges of `cs`, in order; unresolved connections are dropped. */
  function ResolvedEdges(nodes: map<NodeId, Node>, cs: seq<Connection>): seq<Edge> {
    if |cs| == 0 then []
    else
      var last := Resolve(nodes, cs[|cs| - 1]);
      ResolvedEdges(nodes, cs[..|cs| - 1]) + (if last.Some? then [last.value] else [])
  }

  /** The targets of the edges of `es` that leave `d`, in order. */
  function TargetsOf(es: seq<Edge>, d: DeviceId): seq<DeviceId> {
    if |es| == 0 then []
    else TargetsOf(es[..|es| - 1], d) + (if es[|es| - 1].from == d then [es[|es| - 1].to] else [])
  }

  function SourcesOf(es: seq<Edge>): set<DeviceId> {
    set i | 0 <= i < |es| :: es[i].from
  }

  /** Reference definition of the downstream map of an edge list: a key for every
      source device, holding all its targets. */
  function DownstreamOf(es: seq<Edge>): Downstream {
    map d | d in SourcesOf(es) :: TargetsOf(es, d)
  }

  /** The downstream map the service derives from the stored pipelines. */
  function DownstreamMap(ps: seq<Pipeline>, nodes: map<NodeId, Node>): Downstream {
    DownstreamOf(ResolvedEdges(nodes, AllConnections(ps)))
  }

  /** The devices a value is forwarded to from `d`; a device without a key has none. */
  function Outputs(conn: Downstream, d: DeviceId): seq<DeviceId> {
    if d in conn then conn[d] else []
  }

  /** One step of the fold: create the list of `e.from` if it is absent, then push `e.to`. */
  function AddEdge(conn: Downstream, e: Edge): Downstream {
    var targets := if e.from in conn then conn[e.from] else [];
    conn[e.from := targets + [e.to]]
  }

  lemma DownstreamSnoc(es: seq<Edge>, e: Edge)
    ensures DownstreamOf(es + [e]) == AddEdge(DownstreamOf(es), e)
  {
    var es' := es + [e];
    assert es'[..|es'| - 1] == es;
    assert SourcesOf(es') == SourcesOf(es) + {e.from} by {
      forall x | x in SourcesOf(es')
        ensures x in SourcesOf(es) + {e.from}
      {
        var i :| 0 <= i < |es'| && es'[i].from == x;
        if i < |es| { assert es[i] == es'[i]; }
      }
      forall x | x in SourcesOf(es)
        ensures x in SourcesOf(es')
      {
        var i :| 0 <= i < |es| && es[i].from == x;
        assert es'[i] == es[i];
      }
      assert es'[|es|] == e;
    }
    forall d | d in SourcesOf(es') && d != e.from
      ensures TargetsOf(es', d) == TargetsOf(es, d)
    {
    }
    if e.from !in SourcesOf(es) {
      TargetsOfNoSource(es, e.from);
    }
  }

  lemma {:induction false} TargetsOfNoSource(es: seq<Edge>, d: DeviceId)
    requires d !in SourcesOf(es)
    ensures TargetsOf(es, d) == []
    decreases |es|
  {
    if |es| > 0 {
      var init := es[..|es| - 1];
      assert SourcesOf(init) <= SourcesOf(es) by {
        forall x | x in SourcesOf(init) ensures x in SourcesOf(es) {
          var i :| 0 <= i < |init| && init[i].from == x;
          assert es[i] == init[i];
        }
      }
      TargetsOfNoSource(init, d);
      assert es[|es| - 1].from in SourcesOf(es);
    }
  }

  lemma {:induction false} ResolvedEdgesAppend(nodes: map<NodeId, Node>, a: seq<Connection>, b: seq<Connection>)
    ensures ResolvedEdges(nodes, a + b) == ResolvedEdges(nodes, a) + ResolvedEdges(nodes, b)
    decreases |b|
  {
    if |b| == 0 {
      assert a + b == a;
    } else {
      var b' := b[..|b| - 1];
      assert (a + b)[..|a + b| - 1] == a + b';
      assert (a + b)[|a + b| - 1] == b[|b| - 1];
      ResolvedEdgesAppend(nodes, a, b');
    }
  }

  lemma {:induction false} AllConnectionsAppend(x: seq<Pipeline>, y: seq<Pipeline>)
    ensures AllConnections(x + y) == AllConnections(x) + AllConnections(y)
    decreases |y|
  {
    if |y| == 0 {
      assert x + y == x;
    } else {
      var y', last := y[..|y| - 1], y[|y| - 1];
      var xy := x + y;
      assert xy[..|xy| - 1] == x + y';
      assert xy[|xy| - 1] == last;
      AllConnectionsAppend(x, y');
      assert AllConnections(xy) == AllConnections(x) + AllConnections(y') + last.connections;
    }
  }

  /** The connections of the pipelines with the one at `i` replaced by `p`: those before
      it, then those of `p`, then those after it. */
  lemma AllConnectionsUpdate(ps: seq<Pipeline>, i: nat, p: Pipeline)
    requires i < |ps|
    ensures AllConnections(ps[i := p]) == AllConnections(ps[..i]) + p.connections + AllConnections(ps[i + 1..])
    ensures AllConnections(ps) == AllConnections(ps[..i]) + ps[i].connections + AllConnections(ps[i + 1..])
  {
    assert ps[i := p] == ps[..i] + [p] + ps[i + 1..];
    assert ps == ps[..i] + [ps[i]] + ps[i + 1..];
    AllConnectionsAppend(ps[..i] + [p], ps[i + 1..]);
    AllConnectionsAppend(ps[..i], [p]);
    AllConnectionsAppend(ps[..i] + [ps[i]], ps[i + 1..]);
    AllConnectionsAppend(ps[..i], [ps[i]]);
    assert [p][..0] == [] && [ps[i]][..0] == [];
  }

  /** Resolved edges depend only on how each connection resolves: two node maps that
      resolve every connection of `cs` alike give the same edges. */
  lemma {:induction false} ResolvedEdgesAgree(nodes: map<NodeId, Node>, nodes': map<NodeId, Node>, cs: seq<Connection>)
    requires forall k :: 0 <= k < |cs| ==> Resolve(nodes, cs[k]) == Resolve(nodes', cs[k])
    ensures ResolvedEdges(nodes, cs) == ResolvedEdges(nodes', cs)
    decreases |cs|
  {
    if |cs| > 0 {
      var init := cs[..|cs| - 1];
      assert forall k :: 0 <= k < |init| ==> init[k] == cs[k];
      ResolvedEdgesAgree(nodes, nodes', init);
      assert Resolve(nodes, cs[|cs| - 1]) == Resolve(nodes', cs[|cs| - 1]);
    }
  }

  /** Adding a node that no stored connection mentions leaves the downstream map as it
      was. */
  lemma NewNodeLeavesDownstream(ps: seq<Pipeline>, nodes: map<NodeId, Node>, id: NodeId, n: Node)
    requires forall c :: c in AllConnections(ps) ==> c.from != id && c.to != id
    ensures DownstreamMap(ps, nodes[id := n]) == DownstreamMap(ps, nodes)
  {
    var cs := AllConnections(ps);
    forall k | 0 <= k < |cs|
      ensures Resolve(nodes[id := n], cs[k]) == Resolve(nodes, cs[k])
    {
      assert cs[k] in cs;
    }
    ResolvedEdgesAgree(nodes[id := n], nodes, cs);
  }

  /** The resolved edges of a single connection. */
  lemma ResolvedSingle(nodes: map<NodeId, Node>, c: Connection)
    ensures ResolvedEdges(nodes, [c]) == if Resolve(nodes, c).Some? then [Resolve(nodes, c).value] else []
  {
    assert [c][..0] == [];
  }

  lemma ResolvedEdgesAround(nodes: map<NodeId, Node>, a: seq<Connection>, b: seq<Connection>, c: Connection)
    ensures ResolvedEdges(nodes, a + [c] + b) == ResolvedEdges(nodes, a) + ResolvedEdges(nodes, [c]) + ResolvedEdges(nodes, b)
    ensures ResolvedEdges(nodes, a + b) == ResolvedEdges(nodes, a) + ResolvedEdges(nodes, b)
  {
    ResolvedEdgesAppend(nodes, a + [c], b);
    ResolvedEdgesAppend(nodes, a, [c]);
    ResolvedEdgesAppend(nodes, a, b);
  }

  lemma MultisetAround<T>(x: seq<T>, y: seq<T>, z: seq<T>)
    ensures multiset(x + y + z) == multiset(x + z) + multiset(y)
    ensures y == [] ==> x + y + z == x + z
  {
    if y == [] {
      assert x + y == x;
    }
  }

  /** A connection inserted among others adds exactly its own resolved edge, if any. */
  lemma InsertedConnection(nodes: map<NodeId, Node>, a: seq<Connection>, b: seq<Connection>, c: Connection)
    ensures multiset(ResolvedEdges(nodes, a + [c] + b))
         == multiset(ResolvedEdges(nodes, a + b)) + multiset(ResolvedEdges(nodes, [c]))
    ensures Resolve(nodes, c).None? ==> ResolvedEdges(nodes, a + [c] + b) == ResolvedEdges(nodes, a + b)
  {
    var ra, rc, rb := ResolvedEdges(nodes, a), ResolvedEdges(nodes, [c]), ResolvedEdges(nodes, b);
    ResolvedEdgesAround(nodes, a, b, c);
    ResolvedSingle(nodes, c);
    MultisetAround(ra, rc, rb);
  }

  /** Folds every connection of every pipeline into the downstream map, skipping the
      connections whose endpoint nodes do not resolve. The store queries run
      concurrently in the source, so the order of a key's targets is not fixed; this
      loop uses storage order. */
  method GetPipelineConnections(ps: seq<Pipeline>, nodes: map<NodeId, Node>) returns (conn: Downstream)
    ensures conn.Keys == SourcesOf(ResolvedEdges(nodes, AllConnections(ps)))
    ensures forall d :: d in conn ==> conn[d] == TargetsOf(ResolvedEdges(nodes, AllConnections(ps)), d)
    ensures conn == DownstreamMap(ps, nodes)
  {
    conn := map[];
    var i := 0;
    while i < |ps|
      invariant 0 <= i <= |ps|
      invariant conn == DownstreamOf(ResolvedEdges(nodes, AllConnections(ps[..i])))
    {
      conn := AddConnections(conn, nodes, AllConnections(ps[..i]), ps[i].connections);
      PrefixConnections(ps, i);
      i := i + 1;
    }
    assert ps[..|ps|] == ps;
  }

  /** The inner loop: the connections `cs` of one pipeline, folded into the map built
      from the connections `done` of the pipelines before it. */
  method AddConnections(conn0: Downstream, nodes: map<NodeId, Node>, ghost done: seq<Connection>, cs: seq<Connection>)
    returns (conn: Downstream)
    requires conn0 == DownstreamOf(ResolvedEdges(nodes, done))
    ensures conn == DownstreamOf(ResolvedEdges(nodes, done + cs))
  {
    conn := conn0;
    var j := 0;
    assert done + cs[..0] == done;
    while j < |cs|
      invariant 0 <= j <= |cs|
      invariant conn == DownstreamOf(ResolvedEdges(nodes, done + cs[..j]))
    {
      var c := cs[j];
      FoldStep(nodes, done, cs, j);
      if c.from in nodes && c.to in nodes {
        conn := AddEdge(conn, Edge(nodes[c.from].deviceId, nodes[c.to].deviceId));
      }
      j := j + 1;
    }
    assert cs[..|cs|] == cs;
  }

  /** One iteration of the inner loop, as a step from the prefix `cs[..j]` to `cs[..j + 1]`. */
  lemma FoldStep(nodes: map<NodeId, Node>, done: seq<Connection>, cs: seq<Connection>, j: nat)
    requires j < |cs|
    ensures var c := cs[j];
      var before := DownstreamOf(ResolvedEdges(nodes, done + cs[..j]));
      var after := DownstreamOf(ResolvedEdges(nodes, done + cs[..j + 1]));
      && (c.from in nodes && c.to in nodes ==> after == AddEdge(before, Edge(nodes[c.from].deviceId, nodes[c.to].deviceId)))
      && (!(c.from in nodes && c.to in nodes) ==> after == before)
  {
    var prev := done + cs[..j];
    assert cs[..j + 1] == cs[..j] + [cs[j]];
    assert prev + [cs[j]] == done + cs[..j + 1];
    ConnectionStep(nodes, prev, cs[j]);
  }

  lemma PrefixConnections(ps: seq<Pipeline>, i: nat)
    requires i < |ps|
    ensures AllConnections(ps[..i + 1]) == AllConnections(ps[..i]) + ps[i].connections
  {
    assert ps[..i + 1][..i] == ps[..i];
  }

  /** A connection whose endpoints do not both resolve leaves the map as it was; one
      that resolves pushes its target device onto the list of its source device. */
  lemma ConnectionStep(nodes: map<NodeId, Node>, cs: seq<Connection>, c: Connection)
    ensures !(c.from in nodes && c.to in nodes) ==>
      DownstreamOf(ResolvedEdges(nodes, cs + [c])) == DownstreamOf(ResolvedEdges(nodes, cs))
    ensures c.from in nodes && c.to in nodes ==>
      DownstreamOf(ResolvedEdges(nodes, cs + [c]))
        == AddEdge(DownstreamOf(ResolvedEdges(nodes, cs)), Edge(nodes[c.from].deviceId, nodes[c.to].deviceId))
  {
    assert (cs + [c])[..|cs|] == cs;
    assert (cs + [c])[|cs|] == c;
    if c.from in nodes && c.to in nodes {
      DownstreamSnoc(ResolvedEdges(nodes, cs), Edge(nodes[c.from].deviceId, nodes[c.to].deviceId));
    } else {
      assert ResolvedEdges(nodes, cs + [c]) == ResolvedEdges(nodes, cs);
    }
  }

  /** What one connection does to the map: nothing when an endpoint does not resolve;
      otherwise the source device gets a key whose list is the old one (or empty) with
      the target device pushed at the end, and every other key keeps its list. */
  lemma ConnectionEffect(nodes: map<NodeId, Node>, cs: seq<Connection>, c: Connection)
    ensures !(c.from in nodes && c.to in nodes) ==>
      DownstreamOf(ResolvedEdges(nodes, cs + [c])) == DownstreamOf(ResolvedEdges(nodes, cs))
    ensures c.from in nodes && c.to in nodes ==>
      var m := DownstreamOf(ResolvedEdges(nodes, cs));
      var m' := DownstreamOf(ResolvedEdges(nodes, cs + [c]));
      var a := nodes[c.from].deviceId;
      && m'.Keys == m.Keys + {a}
      && m'[a] == Outputs(m, a) + [nodes[c.to].deviceId]
      && forall x :: x in m && x != a ==> m'[x] == m[x]
  {
    ConnectionStep(nodes, cs, c);
  }

  /** Connection `c` leaves a node of device `d` and both its endpoints resolve. */
  predicate Feeds(nodes: map<NodeId, Node>, c: Connection, d: DeviceId) {
    c.from in nodes && c.to in nodes && nodes[c.from].deviceId == d
  }

  lemma KeyStep(nodes: map<NodeId, Node>, cs: seq<Connection>, c: Connection, d: DeviceId)
    ensures d in DownstreamOf(ResolvedEdges(nodes, cs + [c])) <==> d in DownstreamOf(ResolvedEdges(nodes, cs)) || Feeds(nodes, c, d)
  {
    ConnectionEffect(nodes, cs, c);
  }

  lemma FeedsSnoc(nodes: map<NodeId, Node>, cs: seq<Connection>, c: Connection, d: DeviceId)
    ensures (exists k :: 0 <= k < |cs + [c]| && Feeds(nodes, (cs + [c])[k], d))
        <==> (exists k :: 0 <= k < |cs| && Feeds(nodes, cs[k], d)) || Feeds(nodes, c, d)
  {
    var cs' := cs + [c];
    if exists k :: 0 <= k < |cs'| && Feeds(nodes, cs'[k], d) {
      var k :| 0 <= k < |cs'| && Feeds(nodes, cs'[k], d);
      if k < |cs| {
        assert cs[k] == cs'[k];
      }
    }
    if exists k :: 0 <= k < |cs| && Feeds(nodes, cs[k], d) {
      var k :| 0 <= k < |cs| && Feeds(nodes, cs[k], d);
      assert cs'[k] == cs[k];
    }
    assert cs'[|cs|] == c;
  }

  /** A device is a key of the downstream map exactly when some stored connection
      leaves one of its nodes and both endpoints of that connection resolve. */
  lemma {:induction false} KeyIffResolvedOutgoing(nodes: map<NodeId, Node>, cs: seq<Connection>, d: DeviceId)
    ensures d in DownstreamOf(ResolvedEdges(nodes, cs)) <==> exists k :: 0 <= k < |cs| && Feeds(nodes, cs[k], d)
    decreases |cs|
  {
    if |cs| > 0 {
      var init := cs[..|cs| - 1];
      var c := cs[|cs| - 1];
      assert init + [c] == cs;
      KeyIffResolvedOutgoing(nodes, init, d);
      KeyStep(nodes, init, c, d);
      FeedsSnoc(nodes, init, c, d);
    }
  }

  /** Targets are pushed, not set-inserted: `t` occurs in the list of `d` once per
      edge d -> t, so parallel edges give repeated entries. */
  lemma {:induction false} TargetMultiplicity(es: seq<Edge>, d: DeviceId, t: DeviceId)
    ensures multiset(TargetsOf(es, d))[t] == multiset(es)[Edge(d, t)]
    decreases |es|
  {
    if |es| > 0 {
      var init := es[..|es| - 1];
      assert init + [es[|es| - 1]] == es;
      TargetMultiplicity(init, d, t);
    }
  }

  /** The downstream list of `d` holds `t` as often as the stored connections resolve
      to the device edge d -> t. */
  lemma DownstreamMultiplicity(ps: seq<Pipeline>, nodes: map<NodeId, Node>, d: DeviceId, t: DeviceId)
    ensures multiset(Outputs(DownstreamMap(ps, nodes), d))[t]
         == multiset(ResolvedEdges(nodes, AllConnections(ps)))[Edge(d, t)]
  {
    var es := ResolvedEdges(nodes, AllConnections(ps));
    TargetMultiplicity(es, d, t);
    if d !in SourcesOf(es) {
      TargetsOfNoSource(es, d);
    }
  }

  /** Up to multiplicity, the resolved edges do not depend on the order of the
      connections. */
  lemma {:induction false} ResolvedEdgesPermutation(nodes: map<NodeId, Node>, a: seq<Connection>, b: seq<Connection>)
    requires multiset(a) == multiset(b)
    ensures multiset(ResolvedEdges(nodes, a)) == multiset(ResolvedEdges(nodes, b))
    decreases |a|
  {
    if |a| == 0 {
      assert |multiset(b)| == 0;
    } else {
      var c, init := a[|a| - 1], a[..|a| - 1];
      assert init + [c] == a;
      assert c in multiset(b);
      var k :| 0 <= k < |b| && b[k] == c;
      SplitLast(a, b, k);
      ResolvedEdgesPermutation(nodes, init, b[..k] + b[k + 1..]);
      ResolvedEdgesAppend(nodes, init, [c]);
      InsertedConnection(nodes, b[..k], b[k + 1..], c);
    }
  }

  /** Taking the last element of `a` out of `a`, and one equal occurrence out of its
      permutation `b`, leaves two permutations of each other. */
  lemma SplitLast<T>(a: seq<T>, b: seq<T>, k: nat)
    requires multiset(a) == multiset(b) && |a| > 0 && k < |b| && b[k] == a[|a| - 1]
    ensures b == b[..k] + [b[k]] + b[k + 1..]
    ensures multiset(a[..|a| - 1]) == multiset(b[..k] + b[k + 1..])
  {
    assert b == b[..k] + [b[k]] + b[k + 1..];
    assert a == a[..|a| - 1] + [b[k]];
    MultisetAround(b[..k], [b[k]], b[k + 1..]);
    MultisetCancel(multiset(a[..|a| - 1]), multiset(b[..k] + b[k + 1..]), multiset([b[k]]));
  }

  lemma MultisetCancel<T>(m: multiset<T>, n: multiset<T>, o: multiset<T>)
    requires m + o == n + o
    ensures m == n
  {
    assert forall x :: (m + o)[x] == m[x] + o[x];
  }

  /** Two stores holding the same connections in any order give downstream maps with
      the same keys and, in every list, the same count of every target. */
  lemma DownstreamOrderFree(ps: seq<Pipeline>, qs: seq<Pipeline>, nodes: map<NodeId, Node>, d: DeviceId, t: DeviceId)
    requires multiset(AllConnections(ps)) == multiset(AllConnections(qs))
    ensures d in DownstreamMap(ps, nodes) <==> d in DownstreamMap(qs, nodes)
    ensures multiset(Outputs(DownstreamMap(ps, nodes), d))[t] == multiset(Outputs(DownstreamMap(qs, nodes), d))[t]
  {
    var es, fs := ResolvedEdges(nodes, AllConnections(ps)), ResolvedEdges(nodes, AllConnections(qs));
    ResolvedEdgesPermutation(nodes, AllConnections(ps), AllConnections(qs));
    SameSources(es, fs, d);
    DownstreamMultiplicity(ps, nodes, d, t);
    DownstreamMultiplicity(qs, nodes, d, t);
  }

  lemma SameSources(es: seq<Edge>, fs: seq<Edge>, d: DeviceId)
    requires multiset(es) == multiset(fs)
    ensures d in SourcesOf(es) <==> d in SourcesOf(fs)
  {
    if d in SourcesOf(es) {
      var i :| 0 <= i < |es| && es[i].from == d;
      assert es[i] in multiset(fs);
      var j :| 0 <= j < |fs| && fs[j] == es[i];
    }
    if d in SourcesOf(fs) {
      var j :| 0 <= j < |fs| && fs[j].from == d;
      assert fs[j] in multiset(es);
      var i :| 0 <= i < |es| && es[i] == fs[j];
    }
  }

  // ---------------------------------------------------------------------------
  // Paths, reachability and acyclicity over a downstream map

  /** `p` is a non-empty walk along downstream edges whose every device is in `live`. */
  predicate IsPath(conn: Downstream, live: set<DeviceId>, p: seq<DeviceId>) {
    && |p| > 0
    && (forall i :: 0 <= i < |p| ==> p[i] in live)
    && (forall i :: 0 <= i < |p| - 1 ==> p[i] in conn && p[i + 1] in conn[p[i]])
  }

  ghost predicate Reaches(conn: Downstream, live: set<DeviceId>, d: DeviceId, x: DeviceId) {
    exists p :: IsPath(conn, live, p) && p[0] == d && p[|p| - 1] == x
  }

  /** `c` is a closed walk: a path of at least one edge that ends where it starts. */
  predicate IsCycle(conn: Downstream, live: set<DeviceId>, c: seq<DeviceId>) {
    |c| >= 2 && IsPath(conn, live, c) && c[0] == c[|c| - 1]
  }

  /** `rank` numbers the devices so that every downstream edge goes to a strictly lower
      rank. A ranked map has no cycle (`RankedHasNoCycle`); the converse is not used. */
  predicate Ranked(conn: Downstream, rank: map<DeviceId, nat>) {
    forall a :: a in conn ==> a in rank && forall b :: b in conn[a] ==> b in rank && rank[b] < rank[a]
  }

  /** The recursion depth a forwarding pass from `d` needs under `rank`. */
  function Need(rank: map<DeviceId, nat>, d: DeviceId): nat {
    if d in rank then rank[d] + 1 else 1
  }

  /** Ranks strictly decrease along every path of a ranked map. */
  lemma {:induction false} RankDescends(conn: Downstream, rank: map<DeviceId, nat>, live: set<DeviceId>, p: seq<DeviceId>, k: nat)
    requires Ranked(conn, rank) && IsPath(conn, live, p)
    requires 0 < k < |p|
    ensures p[0] in rank && p[k] in rank && rank[p[k]] < rank[p[0]]
    decreases k
  {
    if k > 1 {
      RankDescends(conn, rank, live, p, k - 1);
    }
    assert p[k - 1] in conn && p[k] in conn[p[k - 1]];
  }

  /** A ranked map has no cycle. */
  lemma RankedHasNoCycle(conn: Downstream, rank: map<DeviceId, nat>, live: set<DeviceId>, c: seq<DeviceId>)
    requires Ranked(conn, rank)
    ensures !IsCycle(conn, live, c)
  {
    if IsCycle(conn, live, c) {
      RankDescends(conn, rank, live, c, |c| - 1);
    }
  }
}

=== FILE: models.dfy ===
/** The persistent entities of the telemetry simulator: devices, nodes, connections
    and pipelines, with the store's object ids as opaque strings. */
module Models {

  /** An optional value, for the fields and lookups the source may leave undefined. */
  datatype Option<+T> = None | Some(value: T)

  type DeviceId = string
  type NodeId = string
  type EdgeId = string
  type PipelineId = string

  /** Milliseconds since the epoch, as returned by the clock. */
  type Time = int

  datatype DeviceStatus = Active | Inactive

  /** A device record. `name` is optional in the schema; `lastValue` is absent until
      a reading has been stored. */
  datatype Device = Device(name: Option<string>, status: DeviceStatus, lastSeen: Time, lastValue: Option<real>)

  /** A string field that is present and non-empty: what the store's `required` check on
      a string accepts, and what JavaScript treats as a truthy string. */
  predicate IsFilled(x: Option<string>) {
    x.Some? && x.value != ""
  }

  /** A reading produced by the random generator lies in [0, 100). */
  predicate IsReading(v: real) {
    0.0 <= v < 100.0
  }

  datatype Position = Position(x: real, y: real)

  /** A graph vertex; it refers to exactly one device. `caption` is the source's `label`
      field (`label` is a Dafny keyword). */
  datatype Node = Node(caption: string, position: Position, deviceId: DeviceId)

  /** A directed edge between two node ids, with its own sub-document id. */
  datatype Connection = Connection(id: EdgeId, from: NodeId, to: NodeId)

  datatype Pipeline = Pipeline(id: PipelineId, name: string, nodes: seq<NodeId>, connections: seq<Connection>)

  /** True when some connection of `p` carries the sub-document id `e`. */
  predicate HasEdge(p: Pipeline, e: EdgeId) {
    exists k :: 0 <= k < |p.connections| && p.connections[k].id == e
  }

  /** Every stored pipeline holds at least one connection: pipelines are created with
      one, and deleting the last one deletes the pipeline. */
  predicate NoEmptyPipelines(ps: seq<Pipeline>) {
    forall k :: 0 <= k < |ps| ==> |ps[k].connections| > 0
  }

  /** True when the node list of `p` mentions `source` or `target`. */
  predicate Touches(p: Pipeline, source: NodeId, target: NodeId) {
    source in p.nodes || target in p.nodes
  }
}

=== FILE: propagation.dfy ===
/** The real-time propagation engine: the production tick of a device, the one-shot
    forwarding of a reading along the downstream map, and the inactivity sweep, each as
    one transition of an explicit service state with the clock passed in. */
module Propagation {
  import opened Models
  import opened Graph
  import opened Subscriptions

  /** A device whose liveness time is more than this many milliseconds old is swept. */
  const InactivityThreshold: int := 5000

  /** The whole mutable state of the service: the stored devices, nodes and pipelines,
      the subscriber map, the liveness map (last broadcast time per device), the devices
      that own a production timer, one entry per started inactivity sweep, and every
      delivery sent so far. */
  datatype Service = Service(
    devices: map<DeviceId, Device>,
    nodes: map<NodeId, Node>,
    pipelines: seq<Pipeline>,
    subscribers: Subscribers,
    activeDevices: map<DeviceId, Time>,
    producers: set<DeviceId>,
    sweeps: multiset<DeviceId>,
    outbox: seq<Delivery>)

  /** The part of the state a broadcast or a forwarding pass writes. */
  datatype Pass = Pass(devices: map<DeviceId, Device>, activeDevices: map<DeviceId, Time>, outbox: seq<Delivery>)

  function PassOf(s: Service): Pass {
    Pass(s.devices, s.activeDevices, s.outbox)
  }

  function WithPass(s: Service, p: Pass): Service {
    s.(devices := p.devices, activeDevices := p.activeDevices, outbox := p.outbox)
  }

  /** The liveness entry of every device without an open subscriber is unchanged. */
  ghost predicate QuietUnlessWatched(before: map<DeviceId, Time>, after: map<DeviceId, Time>, subs: Subscribers, open: set<ClientId>) {
    forall x :: !HasOpenClient(subs, open, x) ==> (x in after <==> x in before) && (x in before ==> after[x] == before[x])
  }

  /** No liveness entry is dropped, and every entry that changed was set to `now`. */
  predicate OnlyRefreshed(before: map<DeviceId, Time>, after: map<DeviceId, Time>, now: Time) {
    forall x :: x in before ==> x in after && (after[x] == before[x] || after[x] == now)
  }

  /** Broadcasts `payload` to the clients of `d` and records the delivery. */
  function Publish(p: Pass, subs: Subscribers, open: set<ClientId>, d: DeviceId, payload: Payload, now: Time): (r: Pass)
    ensures r.devices == p.devices
    ensures |r.outbox| == |p.outbox| + 1 && r.outbox[..|p.outbox|] == p.outbox
    ensures r.outbox[|p.outbox|] == Delivery(Recipients(Clients(subs, d), open), payload)
    ensures forall c :: multiset(r.outbox[|p.outbox|].recipients)[c] == (if c in open then multiset(Clients(subs, d))[c] else 0)
    ensures HasOpenClient(subs, open, d) ==> r.activeDevices == p.activeDevices[d := now]
    ensures !HasOpenClient(subs, open, d) ==> r.activeDevices == p.activeDevices
    ensures QuietUnlessWatched(p.activeDevices, r.activeDevices, subs, open)
    ensures OnlyRefreshed(p.activeDevices, r.activeDevices, now)
  {
    var b := BroadcastToClients(subs, p.activeDevices, open, d, now);
    Pass(p.devices, b.activeDevices, p.outbox + [Delivery(b.recipients, payload)])
  }

  // ---------------------------------------------------------------------------
  // Producer and sweep timers

  /** Starts the timers of `d`: a production timer only when `d` has none, but a new
      inactivity sweep on every call, whose liveness time starts at `now`. */
  function StartDeviceUpdates(s: Service, d: DeviceId, now: Time): (r: Service)
    ensures r.producers == s.producers + {d}
    ensures r.sweeps[d] == s.sweeps[d] + 1 && forall x :: x != d ==> r.sweeps[x] == s.sweeps[x]
    ensures d in r.activeDevices && r.activeDevices[d] == now
    ensures r.devices == s.devices && r.subscribers == s.subscribers && r.outbox == s.outbox
    ensures r.activeDevices == s.activeDevices[d := now] && r.nodes == s.nodes && r.pipelines == s.pipelines
  {
    s.(producers := s.producers + {d}, sweeps := s.sweeps + multiset{d}, activeDevices := s.activeDevices[d := now])
  }

  /** Starting a device twice keeps one production timer but leaves two sweeps running. */
  lemma StartTwiceOneProducer(s: Service, d: DeviceId, t1: Time, t2: Time)
    ensures var twice := StartDeviceUpdates(StartDeviceUpdates(s, d, t1), d, t2);
      && twice.producers == StartDeviceUpdates(s, d, t1).producers
      && twice.sweeps[d] == s.sweeps[d] + 2
  {
  }

  // ---------------------------------------------------------------------------
  // The production tick

  /** The record a tick stores for `d`: active, seen now, holding the reading; any other
      field of an existing record is kept. */
  function TickRecord(devices: map<DeviceId, Device>, d: DeviceId, v: real, now: Time): (dev: Device)
    requires IsReading(v)
    ensures dev.status == Active && dev.lastSeen == now && dev.lastValue == Some(v)
    ensures d in devices ==> dev.name == devices[d].name
    ensures d !in devices ==> dev.name == None
  {
    if d in devices then devices[d].(status := Active, lastSeen := now, lastValue := Some(v))
    else Device(None, Active, now, Some(v))
  }

  /** The store update of a tick as the source writes it. For an absent device it builds
      a record from the tick data, but the device schema keeps only the fields it
      declares: the reading (`value`) and the id (`deviceId`) are dropped, and the store
      gives the record a new id `newId`. */
  function TickUpsertAsWritten(devices: map<DeviceId, Device>, d: DeviceId, v: real, now: Time, newId: DeviceId): (r: map<DeviceId, Device>)
    requires IsReading(v) && newId !in devices && newId != d
    ensures d in devices ==> r == devices[d := TickRecord(devices, d, v, now)]
  {
    if d in devices then devices[d := devices[d].(status := Active, lastSeen := now, lastValue := Some(v))]
    else devices[newId := Device(None, Active, now, None)]
  }

  /** On an absent device the tick as written stores no record under `d` and no reading
      at all, where the corrected tick stores the reading under `d`. */
  lemma TickOnAbsentDeviceLosesReading(devices: map<DeviceId, Device>, d: DeviceId, v: real, now: Time, newId: DeviceId)
    requires IsReading(v) && newId !in devices && newId != d && d !in devices
    ensures var r := TickUpsertAsWritten(devices, d, v, now, newId);
      d !in r && r[newId].lastValue == None
    ensures devices[d := TickRecord(devices, d, v, now)][d].lastValue == Some(v)
  {
  }

  /** The outcome of a forwarding pass: the state reached, and whether the recursion
      finished within its fuel (`false` means the source would still be forwarding). */
  datatype Run = Run(pass: Pass, settled: bool)

  /** What stays fixed during one forwarding pass: the downstream map, the subscribers,
      the clients in OPEN state, the reading and the clock. */
  datatype Context = Context(conn: Downstream, subscribers: Subscribers, open: set<ClientId>, value: real, now: Time)

  /** `after` is `before`, or `before` with only its last-seen time and last value set. */
  predicate Touched(before: Device, after: Device, v: real, now: Time) {
    after == before || after == before.(lastSeen := now, lastValue := Some(v))
  }

  predicate Stamped(dev: Device, v: real, now: Time) {
    dev.lastSeen == now && dev.lastValue == Some(v)
  }

  /** The context of the forwarding started by a tick of `s`. */
  function TickContext(s: Service, v: real, now: Time, open: set<ClientId>): Context {
    Context(DownstreamMap(s.pipelines, s.nodes), s.subscribers, open, v, now)
  }

  /** One production tick of `d` with reading `v`: store the record, broadcast it, then
      forward the reading to every downstream device. `fuel` bounds the depth of the
      forwarding recursion. */
  function Tick(s: Service, d: DeviceId, v: real, now: Time, open: set<ClientId>, fuel: nat): (r: Service)
    requires IsReading(v)
    ensures d in r.devices && r.devices[d].status == Active
    ensures r.devices[d].lastSeen == now && r.devices[d].lastValue == Some(v)
    ensures r.devices[d] == TickRecord(s.devices, d, v, now)
    ensures r.devices.Keys == s.devices.Keys + {d}
    ensures forall x :: x in s.devices && x != d ==> Touched(s.devices[x], r.devices[x], v, now)
    ensures r == WithPass(s, PassOf(r))
    ensures |r.outbox| > |s.outbox| && r.outbox[..|s.outbox|] == s.outbox
    ensures r.outbox[|s.outbox|] == Delivery(Recipients(Clients(s.subscribers, d), open), DeviceUpdate(d, TickRecord(s.devices, d, v, now)))
    ensures HasOpenClient(s.subscribers, open, d) ==> d in r.activeDevices && r.activeDevices[d] == now
    ensures QuietUnlessWatched(s.activeDevices, r.activeDevices, s.subscribers, open)
    ensures OnlyRefreshed(s.activeDevices, r.activeDevices, now)
  {
    var ctx := TickContext(s, v, now, open);
    var dev := TickRecord(s.devices, d, v, now);
    var p1 := Publish(PassOf(s).(devices := s.devices[d := dev]), s.subscribers, open, d, DeviceUpdate(d, dev), now);
    ForwardAllTouches(ctx, p1, Outputs(ctx.conn, d), fuel);
    WithPass(s, TickRun(s, d, v, now, open, fuel).pass)
  }

  /** The forwarding run of a tick; `settled` tells whether `fuel` sufficed. */
  function TickRun(s: Service, d: DeviceId, v: real, now: Time, open: set<ClientId>, fuel: nat): (r: Run)
    requires IsReading(v)
  {
    var ctx := TickContext(s, v, now, open);
    var dev := TickRecord(s.devices, d, v, now);
    var p1 := Publish(PassOf(s).(devices := s.devices[d := dev]), s.subscribers, open, d, DeviceUpdate(d, dev), now);
    ForwardAll(ctx, p1, Outputs(ctx.conn, d), fuel)
  }

  // ---------------------------------------------------------------------------
  // Forwarding

  /** Forwards the reading into device `d`: nothing happens for an unknown device;
      otherwise its last-seen time and last value are set (status untouched), the record
      is broadcast, and the reading is forwarded to each downstream device in turn. No
      device is remembered as visited. */
  function Forward(ctx: Context, p: Pass, d: DeviceId, fuel: nat): (r: Run)
    ensures r.pass.devices.Keys == p.devices.Keys
    ensures p.outbox <= r.pass.outbox
    ensures d !in p.devices ==> r == Run(p, true)
    decreases fuel, 0
  {
    if d !in p.devices then Run(p, true)
    else if fuel == 0 then Run(p, false)
    else ForwardAll(ctx, Enter(ctx, p, d), Outputs(ctx.conn, d), fuel - 1)
  }

  /** The first step of forwarding into an existing device: stamp it and broadcast it. */
  function Enter(ctx: Context, p: Pass, d: DeviceId): (r: Pass)
    requires d in p.devices
    ensures r.devices == p.devices[d := p.devices[d].(lastSeen := ctx.now, lastValue := Some(ctx.value))]
    ensures r.devices.Keys == p.devices.Keys
    ensures |r.outbox| == |p.outbox| + 1 && r.outbox[..|p.outbox|] == p.outbox
    ensures r.outbox[|p.outbox|] == Delivery(Recipients(Clients(ctx.subscribers, d), ctx.open), DeviceUpdate(d, r.devices[d]))
    ensures HasOpenClient(ctx.subscribers, ctx.open, d) ==> r.activeDevices == p.activeDevices[d := ctx.now]
    ensures !HasOpenClient(ctx.subscribers, ctx.open, d) ==> r.activeDevices == p.activeDevices
    ensures QuietUnlessWatched(p.activeDevices, r.activeDevices, ctx.subscribers, ctx.open)
    ensures OnlyRefreshed(p.activeDevices, r.activeDevices, ctx.now)
  {
    var dev := p.devices[d].(lastSeen := ctx.now, lastValue := Some(ctx.value));
    Publish(p.(devices := p.devices[d := dev]), ctx.subscribers, ctx.open, d, DeviceUpdate(d, dev), ctx.now)
  }

  /** Forwards the reading into each device of `outs`, one after the other. */
  function ForwardAll(ctx: Context, p: Pass, outs: seq<DeviceId>, fuel: nat): (r: Run)
    ensures r.pass.devices.Keys == p.devices.Keys
    ensures p.outbox <= r.pass.outbox
    decreases fuel, 1, |outs|
  {
    if |outs| == 0 then Run(p, true)
    else
      var r1 := Forward(ctx, p, outs[0], fuel);
      var r2 := ForwardAll(ctx, r1.pass, outs[1..], fuel);
      Run(r2.pass, r1.settled && r2.settled)
  }

  /** A forwarding pass changes a device only by setting its last-seen time and last
      value, and refreshes liveness only for devices that have an open subscriber. */
  lemma {:induction false} ForwardTouches(ctx: Context, p: Pass, d: DeviceId, fuel: nat)
    ensures var r := Forward(ctx, p, d, fuel);
      && (forall x :: x in p.devices ==> Touched(p.devices[x], r.pass.devices[x], ctx.value, ctx.now))
      && QuietUnlessWatched(p.activeDevices, r.pass.activeDevices, ctx.subscribers, ctx.open)
      && OnlyRefreshed(p.activeDevices, r.pass.activeDevices, ctx.now)
    decreases fuel, 0
  {
    if d in p.devices && fuel > 0 {
      ForwardAllTouches(ctx, Enter(ctx, p, d), Outputs(ctx.conn, d), fuel - 1);
    }
  }

  lemma {:induction false} ForwardAllTouches(ctx: Context, p: Pass, outs: seq<DeviceId>, fuel: nat)
    ensures var r := ForwardAll(ctx, p, outs, fuel);
      && (forall x :: x in p.devices ==> Touched(p.devices[x], r.pass.devices[x], ctx.value, ctx.now))
      && QuietUnlessWatched(p.activeDevices, r.pass.activeDevices, ctx.subscribers, ctx.open)
      && OnlyRefreshed(p.activeDevices, r.pass.activeDevices, ctx.now)
    decreases fuel, 1, |outs|
  {
    if |outs| > 0 {
      var r1 := Forward(ctx, p, outs[0], fuel);
      ForwardTouches(ctx, p, outs[0], fuel);
      ForwardAllTouches(ctx, r1.pass, outs[1..], fuel);
    }
  }

  /** With enough fuel for its rank, forwarding on a ranked map finishes. */
  lemma {:induction false} ForwardSettles(ctx: Context, p: Pass, rank: map<DeviceId, nat>, d: DeviceId, fuel: nat)
    requires Ranked(ctx.conn, rank) && fuel >= Need(rank, d)
    ensures Forward(ctx, p, d, fuel).settled
    decreases fuel, 0
  {
    if d in p.devices {
      ForwardAllSettles(ctx, Enter(ctx, p, d), rank, Outputs(ctx.conn, d), fuel - 1);
    }
  }

  lemma {:induction false} ForwardAllSettles(ctx: Context, p: Pass, rank: map<DeviceId, nat>, outs: seq<DeviceId>, fuel: nat)
    requires Ranked(ctx.conn, rank)
    requires forall k :: 0 <= k < |outs| ==> fuel >= Need(rank, outs[k])
    ensures ForwardAll(ctx, p, outs, fuel).settled
    decreases fuel, 1, |outs|
  {
    if |outs| > 0 {
      ForwardSettles(ctx, p, rank, outs[0], fuel);
      ForwardAllSettles(ctx, Forward(ctx, p, outs[0], fuel).pass, rank, outs[1..], fuel);
    }
  }

  /** The tail of a path of at least two devices is a path from a downstream device of its head. */
  lemma PathTail(conn: Downstream, live: set<DeviceId>, p: seq<DeviceId>)
    requires IsPath(conn, live, p) && |p| > 1
    ensures p[0] in conn && p[1] in conn[p[0]]
    ensures IsPath(conn, live, p[1..]) && p[1..][0] == p[1] && p[1..][|p| - 2] == p[|p| - 1]
  {
    assert forall i :: 0 <= i < |p| - 1 ==> p[1..][i] == p[i + 1];
  }

  /** Prepending a device to a path from one of its downstream devices gives a path. */
  lemma PathCons(conn: Downstream, live: set<DeviceId>, d: DeviceId, q: seq<DeviceId>)
    requires IsPath(conn, live, q) && d in live && d in conn && q[0] in conn[d]
    ensures IsPath(conn, live, [d] + q) && ([d] + q)[0] == d && ([d] + q)[|q|] == q[|q| - 1]
  {
    assert forall i :: 1 <= i < |q| + 1 ==> ([d] + q)[i] == q[i - 1];
  }

  /** A pass that finished has set the reading on every device at the end of a path from
      `d` whose devices all exist. */
  lemma {:induction false} ForwardReaches(ctx: Context, p: Pass, d: DeviceId, fuel: nat, path: seq<DeviceId>)
    requires Forward(ctx, p, d, fuel).settled
    requires IsPath(ctx.conn, p.devices.Keys, path) && path[0] == d
    ensures Stamped(Forward(ctx, p, d, fuel).pass.devices[path[|path| - 1]], ctx.value, ctx.now)
    decreases fuel, 0
  {
    var p1 := Enter(ctx, p, d);
    var outs := Outputs(ctx.conn, d);
    var r := ForwardAll(ctx, p1, outs, fuel - 1);
    assert Forward(ctx, p, d, fuel) == r && r.settled;
    assert p1.devices.Keys == p.devices.Keys;
    var last := path[|path| - 1];
    if |path| == 1 {
      ForwardAllTouches(ctx, p1, outs, fuel - 1);
      assert Touched(p1.devices[d], r.pass.devices[d], ctx.value, ctx.now);
    } else {
      PathTail(ctx.conn, p.devices.Keys, path);
      var q := path[1..];
      var k :| 0 <= k < |outs| && outs[k] == q[0];
      assert q[|q| - 1] == last;
      ForwardAllReaches(ctx, p1, outs, fuel - 1, k, q);
    }
  }

  lemma {:induction false} ForwardAllReaches(ctx: Context, p: Pass, outs: seq<DeviceId>, fuel: nat, k: nat, path: seq<DeviceId>)
    requires ForwardAll(ctx, p, outs, fuel).settled
    requires k < |outs| && IsPath(ctx.conn, p.devices.Keys, path) && path[0] == outs[k]
    ensures Stamped(ForwardAll(ctx, p, outs, fuel).pass.devices[path[|path| - 1]], ctx.value, ctx.now)
    decreases fuel, 1, |outs|
  {
    var r1 := Forward(ctx, p, outs[0], fuel);
    if k == 0 {
      ForwardReaches(ctx, p, outs[0], fuel, path);
      ForwardAllTouches(ctx, r1.pass, outs[1..], fuel);
    } else {
      ForwardAllReaches(ctx, r1.pass, outs[1..], fuel, k - 1, path);
    }
  }

  /** A forwarding pass changes only devices reachable from `d` through existing
      devices; the path is returned. */
  lemma {:induction false} ForwardChangesOnlyReachable(ctx: Context, p: Pass, d: DeviceId, fuel: nat, x: DeviceId)
    returns (path: seq<DeviceId>)
    requires x in p.devices && Forward(ctx, p, d, fuel).pass.devices[x] != p.devices[x]
    ensures IsPath(ctx.conn, p.devices.Keys, path) && path[0] == d && path[|path| - 1] == x
    decreases fuel, 0
  {
    if x == d {
      path := [d];
    } else {
      var outs := Outputs(ctx.conn, d);
      var k, q := ForwardAllChangesOnlyReachable(ctx, Enter(ctx, p, d), outs, fuel - 1, x);
      PathCons(ctx.conn, p.devices.Keys, d, q);
      path := [d] + q;
    }
  }

  lemma {:induction false} ForwardAllChangesOnlyReachable(ctx: Context, p: Pass, outs: seq<DeviceId>, fuel: nat, x: DeviceId)
    returns (k: nat, path: seq<DeviceId>)
    requires x in p.devices && ForwardAll(ctx, p, outs, fuel).pass.devices[x] != p.devices[x]
    ensures k < |outs| && IsPath(ctx.conn, p.devices.Keys, path) && path[0] == outs[k] && path[|path| - 1] == x
    decreases fuel, 1, |outs|
  {
    var r1 := Forward(ctx, p, outs[0], fuel);
    if r1.pass.devices[x] != p.devices[x] {
      path := ForwardChangesOnlyReachable(ctx, p, outs[0], fuel, x);
      k := 0;
    } else {
      var k', path' := ForwardAllChangesOnlyReachable(ctx, r1.pass, outs[1..], fuel, x);
      k, path := k' + 1, path';
    }
  }

  /** Forwarding on a ranked map: the pass started with `Need(rank, d)` fuel
      finishes, every device at the end of a path of existing devices from `d` holds the
      reading and was seen now, and every device it changed is reachable from `d`. */
  lemma ForwardOnAcyclicMap(ctx: Context, p: Pass, rank: map<DeviceId, nat>, d: DeviceId)
    requires Ranked(ctx.conn, rank)
    ensures var r := Forward(ctx, p, d, Need(rank, d));
      && r.settled
      && (forall path :: IsPath(ctx.conn, p.devices.Keys, path) && path[0] == d ==>
            Stamped(r.pass.devices[path[|path| - 1]], ctx.value, ctx.now))
      && (forall x :: x in p.devices && r.pass.devices[x] != p.devices[x] ==> Reaches(ctx.conn, p.devices.Keys, d, x))
  {
    var fuel := Need(rank, d);
    ForwardSettles(ctx, p, rank, d, fuel);
    forall path | IsPath(ctx.conn, p.devices.Keys, path) && path[0] == d
      ensures Stamped(Forward(ctx, p, d, fuel).pass.devices[path[|path| - 1]], ctx.value, ctx.now)
    {
      ForwardReaches(ctx, p, d, fuel, path);
    }
    forall x | x in p.devices && Forward(ctx, p, d, fuel).pass.devices[x] != p.devices[x]
      ensures Reaches(ctx.conn, p.devices.Keys, d, x)
    {
      var path := ForwardChangesOnlyReachable(ctx, p, d, fuel, x);
    }
  }

  /** Forwarding has no cycle detection: from any device on a cycle of existing devices,
      no amount of fuel lets the pass finish. */
  lemma {:induction false} CycleNeverSettles(ctx: Context, p: Pass, c: seq<DeviceId>, k: nat, fuel: nat)
    requires IsCycle(ctx.conn, p.devices.Keys, c) && k < |c|
    ensures !Forward(ctx, p, c[k], fuel).settled
    decreases fuel, 0
  {
    if fuel > 0 {
      var j := if k < |c| - 1 then k + 1 else 1;
      assert c[j] in ctx.conn[c[k]];
      CycleAllNeverSettles(ctx, Enter(ctx, p, c[k]), Outputs(ctx.conn, c[k]), c, j, fuel - 1);
    }
  }

  lemma {:induction false} CycleAllNeverSettles(ctx: Context, p: Pass, outs: seq<DeviceId>, c: seq<DeviceId>, j: nat, fuel: nat)
    requires IsCycle(ctx.conn, p.devices.Keys, c) && j < |c| && c[j] in outs
    ensures !ForwardAll(ctx, p, outs, fuel).settled
    decreases fuel, 1, |outs|
  {
    if outs[0] == c[j] {
      CycleNeverSettles(ctx, p, c, j, fuel);
    } else {
      CycleAllNeverSettles(ctx, Forward(ctx, p, outs[0], fuel).pass, outs[1..], c, j, fuel);
    }
  }

  /** A tick on a ranked downstream map, with fuel for the rank of the ticking device,
      finishes and leaves the reading on every device at the end of a path of existing
      devices from it. */
  lemma TickPropagates(s: Service, d: DeviceId, v: real, now: Time, open: set<ClientId>, rank: map<DeviceId, nat>, fuel: nat)
    requires IsReading(v)
    requires Ranked(DownstreamMap(s.pipelines, s.nodes), rank) && fuel >= Need(rank, d)
    ensures TickRun(s, d, v, now, open, fuel).settled
    ensures forall path :: IsPath(DownstreamMap(s.pipelines, s.nodes), s.devices.Keys + {d}, path) && path[0] == d ==>
      Stamped(Tick(s, d, v, now, open, fuel).devices[path[|path| - 1]], v, now)
  {
    var ctx := TickContext(s, v, now, open);
    var dev := TickRecord(s.devices, d, v, now);
    var p1 := Publish(PassOf(s).(devices := s.devices[d := dev]), s.subscribers, open, d, DeviceUpdate(d, dev), now);
    var outs := Outputs(ctx.conn, d);
    ForwardAllSettles(ctx, p1, rank, outs, fuel);
    forall path | IsPath(ctx.conn, s.devices.Keys + {d}, path) && path[0] == d
      ensures Stamped(Tick(s, d, v, now, open, fuel).devices[path[|path| - 1]], v, now)
    {
      TickReachesPath(s, d, v, now, open, rank, fuel, path);
    }
  }

  lemma TickReachesPath(s: Service, d: DeviceId, v: real, now: Time, open: set<ClientId>, rank: map<DeviceId, nat>, fuel: nat, path: seq<DeviceId>)
    requires IsReading(v)
    requires Ranked(DownstreamMap(s.pipelines, s.nodes), rank) && fuel >= Need(rank, d)
    requires IsPath(DownstreamMap(s.pipelines, s.nodes), s.devices.Keys + {d}, path) && path[0] == d
    ensures Stamped(Tick(s, d, v, now, open, fuel).devices[path[|path| - 1]], v, now)
  {
    var ctx := TickContext(s, v, now, open);
    var dev := TickRecord(s.devices, d, v, now);
    var p1 := Publish(PassOf(s).(devices := s.devices[d := dev]), s.subscribers, open, d, DeviceUpdate(d, dev), now);
    var outs := Outputs(ctx.conn, d);
    ForwardAllSettles(ctx, p1, rank, outs, fuel);
    if |path| > 1 {
      PathTail(ctx.conn, p1.devices.Keys, path);
      var q := path[1..];
      var k :| 0 <= k < |outs| && outs[k] == q[0];
      ForwardAllReaches(ctx, p1, outs, fuel, k, q);
    }
  }

  // ---------------------------------------------------------------------------
  // The inactivity sweep

  /** The sweep condition. A device without a liveness entry compares as undefined,
      which is never greater than the threshold. */
  predicate SweepFires(s: Service, d: DeviceId, now: Time) {
    d in s.activeDevices && now - s.activeDevices[d] > InactivityThreshold
  }

  /** One sweep of `d`: when the condition holds, the stored record (if any) becomes
      inactive and the inactive notice is broadcast, whatever the previous status was. */
  function Sweep(s: Service, d: DeviceId, now: Time, open: set<ClientId>): (r: Service)
    ensures !SweepFires(s, d, now) ==> r == s
    ensures SweepFires(s, d, now) ==>
      && |r.outbox| == |s.outbox| + 1 && r.outbox[..|s.outbox|] == s.outbox
      && r.outbox[|s.outbox|].payload == InactiveNotice(d)
      && (forall c :: multiset(r.outbox[|s.outbox|].recipients)[c] == (if c in open then multiset(Clients(s.subscribers, d))[c] else 0))
      && r.devices.Keys == s.devices.Keys
      && (d in s.devices ==> r.devices[d] == s.devices[d].(status := Inactive))
      && (forall x :: x in s.devices && x != d ==> r.devices[x] == s.devices[x])
      && r == WithPass(s, PassOf(r))
    ensures SweepFires(s, d, now) && HasOpenClient(s.subscribers, open, d) ==> r.activeDevices == s.activeDevices[d := now]
    ensures SweepFires(s, d, now) && !HasOpenClient(s.subscribers, open, d) ==> r.activeDevices == s.activeDevices
  {
    if SweepFires(s, d, now) then
      var devices := if d in s.devices then s.devices[d := s.devices[d].(status := Inactive)] else s.devices;
      WithPass(s, Publish(PassOf(s).(devices := devices), s.subscribers, open, d, InactiveNotice(d), now))
    else s
  }

  /** The sweep does not remember that it already reported a device: after a sweep that
      fired at `t`, a later sweep at `t2` fires again unless the notice itself refreshed
      the liveness time (it does when an open client received it). */
  lemma SweepRepeats(s: Service, d: DeviceId, t: Time, t2: Time, open: set<ClientId>)
    requires SweepFires(s, d, t) && t <= t2
    ensures var s1 := Sweep(s, d, t, open);
      && (!HasOpenClient(s.subscribers, open, d) ==> SweepFires(s1, d, t2))
      && (HasOpenClient(s.subscribers, open, d) ==> (SweepFires(s1, d, t2) <==> t2 - t > InactivityThreshold))
      && (d in s.devices ==> s1.devices[d].status == Inactive)
  {
  }

  /** The liveness time is refreshed only by a broadcast that reached an open client, not
      by the tick itself: a device whose producer ticks but which no open client watches
      is still swept right after the tick, and ends inactive holding the new reading. */
  lemma UnwatchedProducerIsSwept(s: Service, d: DeviceId, v: real, now: Time, open: set<ClientId>, fuel: nat)
    requires IsReading(v) && !HasOpenClient(s.subscribers, open, d) && SweepFires(s, d, now)
    ensures var ticked := Tick(s, d, v, now, open, fuel);
      && SweepFires(ticked, d, now)
      && Sweep(ticked, d, now, open).devices[d].status == Inactive
      && Sweep(ticked, d, now, open).devices[d].lastValue == Some(v)
  {
  }
}

=== FILE: subscriptions.dfy ===
/** The subscriber map: for every device id, the list of client connections that
    receive its updates, and the multicast that delivers one payload to the clients of
    a device that are currently open. */
module Subscriptions {
  import opened Models

  /** A client connection, by identity. */
  type ClientId = nat

  type Subscribers = map<DeviceId, seq<ClientId>>

  /** What the service sends to clients. */
  datatype Payload =
    | DeviceUpdate(deviceId: DeviceId, device: Device)
    | InactiveNotice(deviceId: DeviceId)
    | NodeCreated(nodeId: NodeId, node: Node, device: Device)
    | EdgeDeleted(edgeId: EdgeId)

  /** One payload handed to a list of clients, one message per list entry. */
  datatype Delivery = Delivery(recipients: seq<ClientId>, payload: Payload)

  /** The clients of `d`; a device without a key has none. */
  function Clients(subs: Subscribers, d: DeviceId): seq<ClientId> {
    if d in subs then subs[d] else []
  }

  /** The map never stores an empty list: a key exists only while some client is subscribed. */
  predicate NoEmptyLists(subs: Subscribers) {
    forall d :: d in subs ==> |subs[d]| > 0
  }

  /** Subscribes `ws` to `d`: the list of `d` is created when absent and `ws` is pushed at
      its end, even if it is already there. */
  function AddActiveConnection(subs: Subscribers, d: DeviceId, ws: ClientId): (r: Subscribers)
    ensures r.Keys == subs.Keys + {d}
    ensures |r[d]| == |Clients(subs, d)| + 1
    ensures r[d][..|r[d]| - 1] == Clients(subs, d) && r[d][|r[d]| - 1] == ws
    ensures multiset(r[d]) == multiset(Clients(subs, d)) + multiset{ws}
    ensures forall x :: x in subs && x != d ==> r[x] == subs[x]
  {
    var current := Clients(subs, d);
    assert (current + [ws])[..|current|] == current;
    subs[d := current + [ws]]
  }

  /** `xs` with every occurrence of `ws` removed, order kept. */
  function Without(xs: seq<ClientId>, ws: ClientId): (r: seq<ClientId>)
    ensures multiset(r) == multiset(xs)[ws := 0]
  {
    if |xs| == 0 then []
    else
      assert xs == [xs[0]] + xs[1..];
      if xs[0] == ws then Without(xs[1..], ws) else [xs[0]] + Without(xs[1..], ws)
  }

  /** Removing `ws` leaves nothing exactly when every entry is `ws`. */
  lemma {:induction false} WithoutEmpty(xs: seq<ClientId>, ws: ClientId)
    ensures |Without(xs, ws)| > 0 <==> exists i :: 0 <= i < |xs| && xs[i] != ws
  {
    if |xs| > 0 {
      WithoutEmpty(xs[1..], ws);
      assert forall i :: 1 <= i < |xs| ==> xs[i] == xs[1..][i - 1];
      if xs[0] != ws {
        assert xs[0] != ws;
      }
    }
  }

  /** Unsubscribes every occurrence of `ws` from `d`, deleting the key when no client is
      left. The source reads the list of `d` unconditionally, so the key must exist. */
  function RemoveActiveConnection(subs: Subscribers, d: DeviceId, ws: ClientId): (r: Subscribers)
    requires d in subs
    ensures d in r <==> exists i :: 0 <= i < |subs[d]| && subs[d][i] != ws
    ensures d in r ==> ws !in r[d] && forall c :: c != ws ==> multiset(r[d])[c] == multiset(subs[d])[c]
    ensures forall x :: x != d ==> (x in r <==> x in subs) && (x in subs ==> r[x] == subs[x])
  {
    var kept := Without(subs[d], ws);
    WithoutEmpty(subs[d], ws);
    assert multiset(kept)[ws] == 0;
    if |kept| == 0 then subs - {d} else subs[d := kept]
  }

  /** Subscribing keeps the invariant that stored lists are non-empty, and so does
      unsubscribing. */
  lemma SubscriptionsKeepListsNonEmpty(subs: Subscribers, d: DeviceId, ws: ClientId)
    requires NoEmptyLists(subs)
    ensures NoEmptyLists(AddActiveConnection(subs, d, ws))
    ensures d in subs ==> NoEmptyLists(RemoveActiveConnection(subs, d, ws))
  {
  }

  lemma {:induction false} WithoutAbsent(xs: seq<ClientId>, ws: ClientId)
    requires ws !in xs
    ensures Without(xs, ws) == xs
    decreases |xs|
  {
    if |xs| > 0 {
      WithoutAbsent(xs[1..], ws);
    }
  }

  lemma {:induction false} WithoutAppend(xs: seq<ClientId>, ys: seq<ClientId>, ws: ClientId)
    ensures Without(xs + ys, ws) == Without(xs, ws) + Without(ys, ws)
    decreases |xs|
  {
    if |xs| == 0 {
      assert xs + ys == ys;
    } else {
      assert (xs + ys)[0] == xs[0];
      assert (xs + ys)[1..] == xs[1..] + ys;
      WithoutAppend(xs[1..], ys, ws);
    }
  }

  lemma WithoutLast(xs: seq<ClientId>, ws: ClientId)
    requires ws !in xs
    ensures Without(xs + [ws], ws) == xs
  {
    WithoutAppend(xs, [ws], ws);
    WithoutAbsent(xs, ws);
    assert Without([ws], ws) == [];
  }

  /** Unsubscribing `ws` from `d` when the list of `d` is `xs + [ws]` and `xs` does
      not hold `ws` brings the list back to `xs`, or deletes the key when `xs` is empty. */
  lemma RemoveLast(subs: Subscribers, d: DeviceId, ws: ClientId, xs: seq<ClientId>)
    requires d in subs && subs[d] == xs + [ws] && ws !in xs
    ensures RemoveActiveConnection(subs, d, ws) == if |xs| == 0 then subs - {d} else subs[d := xs]
  {
    WithoutLast(xs, ws);
  }

  /** Unsubscribing a client that was just subscribed for the first time restores the
      map, provided it kept no empty lists. */
  lemma RemoveUndoesAdd(subs: Subscribers, d: DeviceId, ws: ClientId)
    requires NoEmptyLists(subs)
    requires ws !in Clients(subs, d)
    ensures RemoveActiveConnection(AddActiveConnection(subs, d, ws), d, ws) == subs
  {
    if d in subs {
      RemoveUndoesAddKept(subs, d, ws);
    } else {
      RemoveUndoesAddFirst(subs, d, ws);
    }
  }

  lemma RemoveUndoesAddKept(subs: Subscribers, d: DeviceId, ws: ClientId)
    requires d in subs && |subs[d]| > 0 && ws !in subs[d]
    ensures RemoveActiveConnection(AddActiveConnection(subs, d, ws), d, ws) == subs
  {
    var added := AddActiveConnection(subs, d, ws);
    assert added == subs[d := subs[d] + [ws]];
    RemoveLast(added, d, ws, subs[d]);
    assert added[d := subs[d]] == subs;
  }

  lemma RemoveUndoesAddFirst(subs: Subscribers, d: DeviceId, ws: ClientId)
    requires d !in subs
    ensures RemoveActiveConnection(AddActiveConnection(subs, d, ws), d, ws) == subs
  {
    var added := AddActiveConnection(subs, d, ws);
    assert added == subs[d := [] + [ws]];
    RemoveLast(added, d, ws, []);
    assert added - {d} == subs;
  }

  /** The entries of `clients` in OPEN state, order and repetitions kept. */
  function Recipients(clients: seq<ClientId>, open: set<ClientId>): (r: seq<ClientId>)
    ensures forall c :: multiset(r)[c] == (if c in open then multiset(clients)[c] else 0)
    ensures |r| > 0 <==> exists i :: 0 <= i < |clients| && clients[i] in open
  {
    if |clients| == 0 then []
    else
      var rest := Recipients(clients[1..], open);
      assert clients == [clients[0]] + clients[1..];
      if clients[0] in open then [clients[0]] + rest
      else
        assert forall i :: 1 <= i < |clients| ==> clients[i] == clients[1..][i - 1];
        rest
  }

  predicate HasOpenClient(subs: Subscribers, open: set<ClientId>, d: DeviceId) {
    exists i :: 0 <= i < |Clients(subs, d)| && Clients(subs, d)[i] in open
  }

  /** The outcome of one broadcast: who got the payload and the refreshed liveness map. */
  datatype Broadcast = Broadcast(recipients: seq<ClientId>, activeDevices: map<DeviceId, Time>)

  /** Broadcast to the clients of `d`: each list entry in OPEN state gets one message,
      and the liveness time of `d` becomes `now` exactly when at least one was sent. */
  function BroadcastToClients(subs: Subscribers, active: map<DeviceId, Time>, open: set<ClientId>, d: DeviceId, now: Time): (r: Broadcast)
    ensures forall c :: multiset(r.recipients)[c] == (if c in open then multiset(Clients(subs, d))[c] else 0)
    ensures HasOpenClient(subs, open, d) ==> r.activeDevices == active[d := now]
    ensures !HasOpenClient(subs, open, d) ==> r.activeDevices == active && r.recipients == []
  {
    var rs := Recipients(Clients(subs, d), open);
    Broadcast(rs, if |rs| > 0 then active[d := now] else active)
  }

  /** Subscriptions are not de-duplicated: a client subscribed twice to a device that it
      did not follow before receives every broadcast of that device twice. */
  lemma DoubleSubscriptionDoubleDelivery(subs: Subscribers, active: map<DeviceId, Time>, open: set<ClientId>, d: DeviceId, ws: ClientId, now: Time)
    requires ws in open && ws !in Clients(subs, d)
    ensures var twice := AddActiveConnection(AddActiveConnection(subs, d, ws), d, ws);
      multiset(BroadcastToClients(twice, active, open, d, now).recipients)[ws] == 2
  {
    var once := AddActiveConnection(subs, d, ws);
    assert multiset(Clients(subs, d))[ws] == 0;
    assert Clients(once, d) == once[d];
  }
}
